=== FILE: README.md ===
# smp installation lifecycle, modelled in Dafny

smp is a command-line manager for MCP servers (Model Context Protocol).
It runs each server in a Docker container and registers it with local
AI hosts. This project models the lifecycle core of smp:

- `smp install <name>` looks up the embedded definition, builds the image,
  loads or creates the per-MCP state record and records the image tag. It
  then asks for the environment variables still missing, with secrets
  optionally routed to the macOS keychain. Next it offers the available
  hosts in a multi-select, connects the MCP in each picked host (best
  effort) and saves the state with the hosts that succeeded.
- `smp uninstall <name>` loads the state, removes the image, disconnects the
  MCP from every host it was configured in and deletes the state file. Any
  failure stops the command and keeps the state file.
- `smp run <name>` loads the state, resolves keychain references into
  environment variables and starts `docker run` with those declared
  variables that have a value, and no others.

Beneath the commands sit the components they use:

- the state store: one `<name>.json` file per MCP, whole-record saves,
  load-or-create, and deletes that tolerate a missing file;
- the host connectors for cline and cursor. Each does a read-modify-write
  of its host's JSON config file. Of that file the model holds the
  `mcpServers` map, each entry's command, arguments and environment, and
  only the entry named after the MCP changes. Connecting is an idempotent
  upsert that conflicts with an entry running a different binary;
- the host manager, the embedded definition catalog, the image builder, the
  git clone helper, the Docker runner, the keychain and the prompts.

The file system, the keychain and the user's answers are modelled as
values: maps of file contents, a map of keychain items, and sequences of
answers. Outside effects whose outcome the code only observes become
boolean or `Result` parameters: opening the home store, `docker`, `git`,
writing files, and survey widgets that fail. The Go code keeps state in
place: `MCPServer`, the state `Store`, the keychain, the host `Manager` and
the `Builder`. These are Dafny classes whose methods state their new state.
The pure parts are functions, and the lemmas relate them: save then load,
connect then disconnect, idempotence, and soundness and completeness of the
`docker run` flags.

Modules: `Errors`, `Strings`, `Collections` (helpers), `Config`, `State`,
`Keystore`, `HostConnectors`, `HostManager`, `Definitions`, `Docker`,
`Git`, `Build`, `Prompt`, `InstallCommand`, `UninstallCommand` and
`RunCommand`.

## Model

| member | source | states |
|---|---|---|
| Strings.TrimSuffix | definitions/embed.go:38-41 | with the suffix present, the result followed by the suffix is the input; otherwise the input is returned unchanged |
| Strings.Ext | internal/state/state.go:119 | the suffix from the last dot of the last path element: a non-empty extension is a suffix of the path that starts with its only dot and holds no '/'; "" exactly when every dot is followed by a later '/' |
| Strings.ExtJsonIffSuffix | internal/state/state.go:119-123 | the extension test `Ext(f) == ".json"` used by List holds exactly when the name ends in ".json", so cutting five characters gives the MCP name |
| State.LoadRecord | internal/state/state.go:73-94 | load-or-create: a missing file gives the empty record for the name, a stored file its record, and only an unreadable or undecodable file is an error (StateUnreadable) |
| State.FileNameInjective | internal/state/state.go:64 | the state file is the name plus ".json", so distinct names give distinct file names; this holds for plain names, as path cleaning is not modelled |
| State.SaveThenLoad | internal/state/state.go:58-94 | loading after a save returns the saved record, and loading any other name sees what it saw before |
| State.SaveLoadedIsNoOp | internal/state/state.go:58-94 | saving the record just loaded changes nothing any later load can observe |
| State.DeleteThenLoad | internal/state/state.go:97-105 | after a delete the name loads as a fresh empty record again, and every other name is untouched |
| State.MCPServer.constructor | internal/state/state.go:11-26 | the object holds exactly the given record |
| State.MCPServer.GetEnvironmentVariable | internal/state/state.go:144-150 | reports presence iff the key is set, with its value, and ("", false) otherwise, also for a nil map |
| State.MCPServer.SetEnvironmentVariable | internal/state/state.go:136-141 | the key then reads back as (value, true), every other key reads as before, and no other field changes |
| State.MCPServer.SetLocalImageTag | internal/state/state.go:153-155 | only the image tag of the record changes |
| State.Store.constructor | internal/state/state.go:28-31 | a store over the given directory contents, whether the directory exists, and the file system's permissions |
| State.Store.Open | internal/state/state.go:33-55 | opening the store creates the state directory when it is missing and keeps the files there; an unknown home directory or a failed MkdirAll reports StoreUnavailable and creates nothing |
| State.Store.Save | internal/state/state.go:58-70 | a whole-record replace of `<name>.json`; a failed write reports StateWriteFailed and leaves the directory unchanged |
| State.Store.Load | internal/state/state.go:73-94 | succeeds iff LoadRecord does, returning a fresh object holding that record, or LoadRecord's error |
| State.Store.Delete | internal/state/state.go:97-105 | removes the file; a missing file is success with nothing changed; a failed removal reports StateDeleteFailed and changes nothing |
| State.Store.LoadFile | internal/state/state.go:123-124 | loading the name cut from a ".json" file reads that very file: success iff it holds a record, and the object is that record |
| State.Store.List | internal/state/state.go:108-133 | no directory gives an empty list; an unreadable directory is StateDirUnreadable; otherwise it succeeds iff every ".json" file is readable, with one fresh object per ".json" file, each file's record appearing and nothing else |
| Keystore.KeyChain.Store | keystore/keychain.go:18-35 | adds or updates the item of the account, so one account keeps a single item; a failing keychain reports SecretStoreFailed and changes nothing |
| Keystore.KeyChain.Retrieve | keystore/keychain.go:54-70 | succeeds iff the account has an item, returning its secret, and otherwise reports KeyNotFound |
| HostConnectors.LoadConfig | internal/host/cline.go:54-89 | a missing file or a null server map loads as the empty map; it is an error iff the file cannot be read or parsed |
| HostConnectors.ConnectFile | internal/host/cline.go:107-142 | a load error is returned with the file unchanged; an existing entry is kept, and is success only when it runs the same binary, otherwise a Conflict naming the other binary; a new entry runs the binary with `run <server>` and HOME, every other entry is kept, and an unwritable file reports ConfigWriteFailed unchanged |
| HostConnectors.DisconnectFile | internal/host/cline.go:144-163 | a load error reports not-present; an absent entry is (not present, success) with no write; otherwise it is present, and exactly that entry is removed, or the write failure is reported with the file unchanged |
| HostConnectors.ConnectIdempotent | internal/host/cline.go:113-121 | connecting again with the same binary after a successful connect succeeds and changes nothing |
| HostConnectors.ConnectOtherBinaryConflicts | internal/host/cline.go:114-118 | once one binary is connected under a name, connecting another binary under it is a conflict naming the first and leaves the file unchanged |
| HostConnectors.ConnectThenDisconnect | internal/host/cline.go:107-163 | disconnect after a successful connect reports the server as present and restores exactly the entries that were there before |
| HostConnectors.DisconnectIdempotent | internal/host/cline.go:150-153 | a second disconnect finds nothing, writes nothing and succeeds |
| HostConnectors.DisconnectSucceedsIffGone | internal/host/cline.go:144-163 | a disconnect succeeds exactly when it leaves a readable file without the entry, and a failed one leaves the file as it was |
| HostConnectors.JoinPath | internal/host/cline.go:28-32 | joining parts of which one is non-empty gives a non-empty path |
| HostConnectors.ClineConfigFolder | internal/host/cline.go:25-36 | the folder is empty exactly for an operating system other than darwin, windows and linux |
| HostConnectors.HostConnector.Name | internal/host/cline.go:21-23 | cline is named "cline" and cursor "cursor" |
| HostConnectors.HostConnector.Available | internal/host/cline.go:42-52 | cursor is always available; cline is available iff its settings folder is defined for the operating system and exists as a directory |
| HostConnectors.HostConnector.Connect | internal/host/cursor.go:86-121 | the connector's read-modify-write equals ConnectFile on its file |
| HostConnectors.HostConnector.Disconnect | internal/host/cursor.go:123-142 | the connector's read-modify-write equals DisconnectFile on its file, including the present flag reported with a failed write |
| HostManager.Manager.constructor | internal/host/manager.go:22-43 | a manager over a fixed binary path and host map, with one config file per host |
| HostManager.Manager.List | internal/host/manager.go:46-54 | one name per available host: the count equals the number of available hosts, and a name is listed iff an available host carries it |
| HostManager.Manager.Connect | internal/host/manager.go:57-62 | a known host's file becomes what its connector's Connect gives, no other file changes, and an unknown host is HostNotFound with nothing changed |
| HostManager.Manager.Disconnect | internal/host/manager.go:66-71 | a known host answers as its connector's Disconnect, no other file changes, and an unknown host is (false, HostNotFound) with nothing changed |
| Definitions.DefinitionNames | definitions/embed.go:37-43 | never lists more names than there are entries |
| Definitions.DefinitionNamesMembership | definitions/embed.go:37-43 | a name is listed iff some non-directory entry is that name plus ".yaml" |
| Definitions.DefinitionNamesPrefix | definitions/embed.go:37-43 | listing keeps directory order: a prefix of the directory lists a prefix of the names |
| Definitions.Repository.ListMCPs | definitions/embed.go:29-46 | the names of the ".yaml" files at the root, suffix removed, in directory order, and a name is listed iff its ".yaml" file is there |
| Definitions.Repository.MCPConfig | definitions/embed.go:49-66 | succeeds iff `<name>.yaml` exists and decodes, with that definition; otherwise DefinitionNotFound or DefinitionMalformed |
| Definitions.Repository.Dockerfile | definitions/embed.go:69-78 | succeeds iff the path is an embedded file, with its bytes, and otherwise reports DockerfileNotFound |
| Definitions.ListedNamesAreFound | definitions/embed.go:29-66 | a name that ListMCPs returns is never reported as not found by MCPConfig |
| Docker.EnvArgs | internal/docker/docker.go:34-38 | two flags per declared variable that has a value |
| Docker.EnvArgsSound | internal/docker/docker.go:34-38 | every flag pair is "-e" followed by the assignment of a declared variable that has a value, so an undeclared stored variable is never passed |
| Docker.EnvArgsComplete | internal/docker/docker.go:34-38 | every declared variable that has a value is passed as "-e NAME=value" |
| Docker.RunArgs | internal/docker/docker.go:31-41 | `run --rm -i`, then the variable flags, then the image tag last |
| Docker.DeleteImageArgs | internal/docker/docker.go:55 | a forced `rmi` of exactly the given image |
| Docker.DeleteImage | internal/docker/docker.go:53-64 | runs the forced `rmi` and reports ImageDeleteFailed iff the process fails |
| Docker.Runner.constructor | internal/docker/docker.go:21-26 | a runner over the given definition and state |
| Docker.Runner.Run | internal/docker/docker.go:29-50 | the command line is RunArgs of the definition's variables over the state's values and tag; RunFailed iff the container fails |
| Git.CloneArgs | internal/git/git.go:18-26 | a shallow clone, on `-b <branch>` only when a branch is given, of the URL into the directory |
| Git.CloneRepository | internal/git/git.go:10-40 | a failed temporary directory runs nothing; a failed clone removes the directory and returns ""; a successful one returns the directory |
| Build.ImageTagInjective | internal/build/build.go:83 | the tag is derived from the MCP name alone, and distinct names never share a tag |
| Build.BuildArgs | internal/build/build.go:103-106 | `build -t mcp-<name> <context>`, whose image name with docker's default ":latest" is exactly the recorded tag |
| Build.Builder.constructor | internal/build/build.go:49-53 | a builder over the definition, build directory and state, with no Dockerfile written yet |
| Build.Builder.BuildImage | internal/build/build.go:80-138 | the tag is returned on every path; a missing embedded Dockerfile or a failed write runs nothing; a failed build leaves state and store unchanged; after a good build the state's tag is set; then the home store is opened again, and an unknown home directory or a failed open reports its error and saves nothing; otherwise the state is saved as a whole record, or the write failure is reported (BuildImageOutcome, every case) |
| Build.Builder.BuildFromRepo | internal/build/build.go:62-77 | the clone's outcome is CloneRepository's: a failed temporary directory runs nothing (TempDirFailed), a failed clone removes the directory and returns "" (CloneFailed), and a good one returns the directory; a failed clone returns "" and changes nothing; otherwise the clone becomes the build directory and the tag, arguments, status, Dockerfile, state and store follow BuildImageOutcome on it, case by case as for BuildImage |
| Build.NewBuilder | internal/build/build.go:25-54 | fails on the temporary directory, then on the home directory, then on opening the home store (StoreUnavailable), then on the state load; otherwise a fresh builder over the loaded record, with the store's directory created and its files unchanged |
| Prompt.AccountKeyInjective | internal/prompt/prompt.go:65 | within one definition, distinct variables get distinct keychain accounts |
| Prompt.KeychainChoice | internal/prompt/prompt.go:17-35 | on macOS with a secret declared, the user's confirmation is the choice and a failed confirmation is PromptFailed; otherwise the keychain is not used and nothing is asked |
| Prompt.CollectKeepsSetVariables | internal/prompt/prompt.go:38-41 | a variable already set keeps its value to the end of the loop |
| Prompt.CollectSkipsSet | internal/prompt/prompt.go:38-41 | a variable already set when its turn comes is skipped: no answer is used for it and nothing changes |
| Prompt.CollectPlainGetsAnswer | internal/prompt/prompt.go:58-74 | a prompted variable that is not a keychain secret is set in the environment to its own answer, the next unused one, and keeps it to the end |
| Prompt.CollectKeepsAccount | internal/prompt/prompt.go:63-71 | the keychain reference and item of a name the loop never meets stay as they were |
| Prompt.CollectSecretToKeychain | internal/prompt/prompt.go:63-71 | a prompted secret with the keychain chosen goes to the keychain: its account key references it, it is not in the environment, the keychain holds its answer when it accepts the item, and the loop goes on when it refuses it |
| Prompt.CollectIgnoresKeychainFailure | internal/prompt/prompt.go:64-66 | a keychain that refuses every item leaves the environment, references, answers used and failure exactly as with a working keychain, and is itself unchanged |
| Prompt.CollectOnlyDeclared | internal/prompt/prompt.go:37-75 | only declared variables are set, and only account keys of declared secrets are recorded as references |
| Prompt.CollectWithoutKeychain | internal/prompt/prompt.go:63-74 | without the keychain, references and keychain stay as they were |
| Prompt.CollectCoversDeclared | internal/prompt/prompt.go:37-75 | when no prompt fails, every declared variable ends up set or referenced under its own account key (the route and the value are stated by CollectPlainGetsAnswer and CollectSecretToKeychain) |
| Prompt.CollectAfterFailure | internal/prompt/prompt.go:59-61 | after a failed prompt nothing more changes, so the updates made before it remain |
| Prompt.PromptEnvironmentVariables | internal/prompt/prompt.go:14-78 | a failed keychain question changes nothing; otherwise the state and keychain become the outcome of the variable loop (Collect), success iff no prompt failed, and name, tag and hosts are untouched |
| Prompt.HasSecrets | internal/prompt/prompt.go:19-25 | true iff some declared variable is a secret |
| Prompt.AskVariable | internal/prompt/prompt.go:38-74 | one iteration of the loop equals one Step of Collect on the state and keychain |
| Prompt.DefaultIndices | internal/prompt/prompt.go:83-88 | strictly ascending positions, each in range, and a position is included iff its option is marked true |
| Prompt.MultiSelect | internal/prompt/prompt.go:81-108 | a failed widget is PromptFailed; in-range picks give the options at the picked positions in the order picked; the first out-of-range pick, when there is one, is the error, named by its index |
| RunCommand.ResolvedUnique | commands/run.go:50-58 | when no two accounts name the same variable, the resolved environment does not depend on the order the references are walked |
| RunCommand.Run | commands/run.go:21-67 | the argument, definition, store and state errors in order; a missing keychain item is KeyNotFound for one missing account and runs nothing; otherwise every reference is resolved from the keychain into the saved environment and the container runs with RunArgs over it |
| UninstallCommand.DisconnectStep | commands/uninstall.go:43-46 | one pass: after a failure nothing changes; otherwise the host is attempted and its file becomes DisconnectFile's result, whose status becomes the loop's; an unknown host is HostNotFound with no file changed; the hosts with config files stay the same |
| UninstallCommand.DisconnectEach | commands/uninstall.go:42-50 | the loop as a value over the configured hosts in order, stopping at the first failure; the hosts with config files stay the same |
| UninstallCommand.DisconnectEachStaysFailed | commands/uninstall.go:44-46 | once the loop has failed on a prefix of the hosts, the whole loop ends exactly as it did there |
| UninstallCommand.DisconnectEachOutcome | commands/uninstall.go:42-50 | the loop attempts a prefix of the hosts and changes no other file; every attempted host but the last no longer holds the server; success means every host was attempted and holds it no more; a failure leaves the failing host still holding it or unreadable |
| UninstallCommand.DisconnectAll | commands/uninstall.go:41-50 | the files, hosts attempted and status are exactly DisconnectEach's over the manager's files; hosts are tried in order and the loop stops at the first failure; every host before it no longer holds the server, a failing host still does, success means every configured host is clean, and untried hosts' files are unchanged |
| UninstallCommand.Uninstall | commands/uninstall.go:18-59 | argument, store and load errors change nothing; the store is opened, creating its directory; the image of a non-empty tag is removed first; a failed rmi keeps every file; the hosts' files become DisconnectEach's over the recorded hosts, a failed disconnect is the command's error and keeps the state file, and the state file is deleted only after every configured host is clean |
| InstallCommand.Successes | commands/install.go:92-100 | never more recorded hosts than selected |
| InstallCommand.SuccessesAppend | commands/install.go:94-98 | trying one more host extends the recorded hosts by that host exactly when its connect succeeded |
| InstallCommand.SuccessesMembership | commands/install.go:92-100 | a host is recorded iff one of its connects succeeded |
| InstallCommand.ConnectSucceedsIffRuns | internal/host/cline.go:107-142 | a connect succeeds exactly when it leaves the host's file running the server through this binary, and a file already running it is left as it is |
| InstallCommand.ConnectStep | commands/install.go:93-99 | one pass: a known host's file becomes ConnectFile's result and its status is appended to the earlier ones, an unknown host appends HostNotFound and changes no file; the hosts with config files stay the same |
| InstallCommand.ConnectAll | commands/install.go:92-100 | the loop as a value: every selected host is tried in order on the files the earlier ones left, one result per host, whatever the earlier results; the hosts with config files stay the same |
| InstallCommand.ConnectAllTried | commands/install.go:92-100 | over files for exactly the known hosts, every success of the loop left its host running the server through this binary, and an unknown host failed as such |
| InstallCommand.ConnectAllFrame | commands/install.go:92-100 | a host outside the selection keeps its file |
| InstallCommand.ConnectSelected | commands/install.go:92-100 | the files and results are exactly ConnectAll's over the manager's files; every selected host is tried, each success leaves its host running the server through this binary, an unknown host fails as such, and unselected hosts' files are unchanged |
| InstallCommand.Prepared | commands/install.go:23-59 | succeeds iff the argument, definition, store, build and state load all succeed, giving the definition and the loaded record with only its tag replaced by the built one |
| InstallCommand.Prepare | commands/install.go:23-59 | returns Prepared's error, or the definition and a fresh state object holding Prepared's record; the store is opened, so after success its directory exists, and its files are unchanged |
| InstallCommand.ConfigureHosts | commands/install.go:67-104 | the available hosts are offered, all pre-selected; no available host gives an empty selection; otherwise the multi-select's answer is connected host by host, the files and results being ConnectAll's; a failed widget or an out-of-range pick (the first one is named) connects nothing |
| InstallCommand.Install | commands/install.go:21-113 | errors before the prompts change nothing; a failed prompt saves nothing and touches no host; a failed selection saves nothing; otherwise the loaded record, with the new tag, the collected variables and the hosts that connected appended, replaces the state file, or the write failure is reported |

## Left out

- The claude_desktop connector is not part of this model: only cline and cursor are modelled. The host map is a parameter of `Manager`.
- JSON and YAML decoding are taken to be exact for the modelled fields. A config file or state file is a value that is absent, unreadable, malformed or decoded, and the bytes are not modelled.
- HostConnectors: a host config file is modelled as its `mcpServers` map, each entry with command, arguments and environment. The Go structs hold only those, so every write re-encodes the file without any other top-level key and without any other field of an entry (`disabled`, `autoApprove` and the like). The model holds no such fields, so this loss on connect and disconnect is not shown. `json.Marshal` failures cannot happen for these types and are not modelled.
- Go map iteration order: `Manager.List` and the keychain loop of `run` pick map entries in an unspecified order. Their contracts state sets, counts and order-independent facts, not an order.
- State.Store.List: `os.ReadDir` returns the entries sorted by file name, so the Go list is in name order. The model states which records are listed and how many, not their order.
- A Go nil map is the empty map. Go distinguishes them only in encoding (`null` versus `{}`). A `null` decodes to a nil map, which every read treats as empty and every write first replaces with an empty one.
- The survey widgets are not modelled: message text, the password mask, and the re-asking done by the Required validator. An answer is the value finally accepted, and `None` is a prompt that failed. Printed output (progress lines, the "not configured" warning of uninstall) is left out.
- `Builder.CleanUp` and the deferred removal of the clone directory in `BuildFromRepo` are left out. Temporary directories are values, and their removal is not tracked, except `CloneRepository`'s removal after a failed clone.
- install.go calls `builder.DockerImage()`, which build.go does not define. Creating the builder and building the image are therefore one outcome in `Install`, the `built` parameter: the tag, or the first error.
- `NewHomeStore` is `Store.Open`: `os.UserHomeDir` and `MkdirAll` together are its `mkdirOk` parameter (the `storeOk` of the commands), and `homeOk` is the builder's own home-directory lookup. A store is the `Store` passed in: `~/.smp` for the commands, `~/.mcp` for the builder.
- RunCommand.Run: `run` opens the store only to load from it. Its `storeOk` decides whether the command goes on, and the directory that opening would create is not modelled. A missing directory loads as the empty record either way.
- `Strings.Ext` models `filepath.Ext` with the '/' separator only. The Windows separator is not modelled for state file names.
- State.FileName / State.FileNameInjective: an MCP name is taken as a plain file name. `Save`, `Load` and `Delete` build the path with `filepath.Join`, which cleans `.`, `..` and separators, so in Go `./weather`, `a/../weather` and `weather` reach the same `weather.json`. The model keeps them apart. For such a name, `uninstall` in Go loads and deletes the plain name's record and image, while the model sees a fresh empty record and changes nothing.
- `HostConnectors.JoinPath` does not model `filepath.Join`'s cleaning of `..`, `.` and repeated separators. The joined elements are constants plus HOME or APPDATA.
- The connectors' `getConfigPath`, the creation of a missing config directory on save, and file modes are not modelled. A connector's file is the `ConfigFile` value held by `Manager.files`, and `writable` says whether writing it succeeds.
- `DefaultManager` (`os.Executable`, `EvalSymlinks`) is not modelled. The binary path is a constant of the `Manager`.
- An error from the embedded file system's `ReadDir` in `ListMCPs` cannot happen for an embedded directory and is not modelled.
- Prompt.MultiSelect: an out-of-range index from the widget would stop the Go program (index out of range). The model returns Err(SelectionOutOfRange(index)) instead.
- InstallCommand.Install: the Go loop appends each configured host to the state as it goes. The model appends `Successes` after the loop. Nothing reads the list in between, so the saved record is the same.
- State.Store.List: a directory entry that is a sub-directory named `*.json` is not modelled. The model's directory holds only files.
- Keystore.KeyChain: the keychain's service name, access attributes and the "updated" message are left out. A failing `Store` is ignored by the prompts, as in the code.

=== FILE: build.dfy ===
/** The image builder: fetches an MCP's source, replaces its Dockerfile by the
    one embedded in the catalog, runs `docker build`, and records the image tag
    in the MCP's state. The builder keeps its own state store (under `~/.mcp`),
    which is not the store the commands use (under `~/.smp`); both are `Store`
    objects here and the caller decides which one is passed. */
module Build {
  import opened Errors
  import opened Strings
  import opened Config
  import opened State
  import opened Definitions
  import opened Git

  const TagPrefix: string := "mcp-"

  /** The tag recorded for an MCP: derived from the name alone. */
  function ImageTag(name: string): string
  {
    TagPrefix + name + ":latest"
  }

  /** Distinct MCPs never share a tag, and rebuilding an MCP always reuses its
      tag whatever the repository or branch. */
  lemma ImageTagInjective(a: string, b: string)
    requires ImageTag(a) == ImageTag(b)
    ensures a == b
  {
    AppendCancel(TagPrefix + a, TagPrefix + b, ":latest");
    assert a == (TagPrefix + a)[|TagPrefix|..];
    assert b == (TagPrefix + b)[|TagPrefix|..];
  }

  /** The `docker build` command line: it names the image without a version,
      so docker's default ":latest" is what makes it match `ImageTag`. */
  function BuildArgs(name: string, contextDir: string): (r: seq<string>)
    ensures |r| == 4 && r[..2] == ["build", "-t"] && r[3] == contextDir
    ensures r[2] + ":latest" == ImageTag(name)
  {
    ["build", "-t", TagPrefix + name, contextDir]
  }

  class Builder {
    const config: MCPConfig
    var tempDir: string
    /** The Dockerfile the build context in `tempDir` holds, if any. */
    var contextDockerfile: Option<seq<bv8>>
    const state: MCPServer

    constructor (config0: MCPConfig, tempDir0: string, state0: MCPServer)
      ensures config == config0 && tempDir == tempDir0 && state == state0
      ensures contextDockerfile == None
    {
      config := config0;
      tempDir := tempDir0;
      contextDockerfile := None;
      state := state0;
    }

    /** `buildImage`. `writeOk` is whether the Dockerfile can be written into
        the build context, `buildOk` whether `docker build` succeeds, `homeOk`
        whether the home directory is known and `storeOk` whether the
        builder's own store can be opened again (see `BuildImageOutcome`). */
    method BuildImage(repo: Repository, store: Store, writeOk: bool, buildOk: bool, homeOk: bool, storeOk: bool)
      returns (tag: string, args: seq<string>, st: Status)
      requires store.Valid()
      modifies this, state, store
      ensures tempDir == old(tempDir) && store.Valid()
      ensures BuildImageOutcome(repo, config, tempDir, writeOk, buildOk, homeOk, storeOk, store.writable,
                                old(contextDockerfile), old(state.Snapshot()), old(store.files),
                                tag, args, st, contextDockerfile, state.Snapshot(), store.files)
    {
      tag := TagPrefix + config.name + ":latest";
      args := [];
      var dockerfile := repo.Dockerfile(config.dockerfile);
      if dockerfile.Err? {
        return tag, args, Failure(dockerfile.error);
      }
      if !writeOk {
        return tag, args, Failure(DockerfileWriteFailed);
      }
      contextDockerfile := Some(dockerfile.value);
      args := ["build", "-t", TagPrefix + config.name];
      args := args + [tempDir];
      if !buildOk {
        return tag, args, Failure(BuildFailed(config.name));
      }
      state.SetLocalImageTag(TagPrefix + config.name + ":latest");
      if !homeOk {
        return tag, args, Failure(HomeDirUnavailable);
      }
      var openSt := store.Open(storeOk);
      if openSt.Failure? {
        return tag, args, openSt;
      }
      st := store.Save(state);
    }

    /** `BuildFromRepo`: clones the definition's repository and builds from
        the clone. A failed clone returns "" and never builds; otherwise the
        build context becomes the clone, whose own Dockerfile (`clonedDockerfile`)
        is what the context holds before `buildImage` runs on it. */
    method BuildFromRepo(repo: Repository, store: Store, cloneDir: Result<string>, cloneOk: bool,
                         clonedDockerfile: Option<seq<bv8>>, writeOk: bool, buildOk: bool, homeOk: bool,
                         storeOk: bool)
      returns (tag: string, clone: CloneOutcome, args: seq<string>, st: Status)
      requires store.Valid()
      modifies this, state, store
      ensures store.Valid()
      ensures clone.args == (if cloneDir.Ok? then CloneArgs(config.repository, config.branch, cloneDir.value) else [])
      ensures cloneDir.Err? ==> clone == CloneOutcome("", [], false, Failure(TempDirFailed))
      ensures cloneDir.Ok? && !cloneOk ==>
        clone.dir == "" && clone.removed && clone.status == Failure(CloneFailed(config.repository))
      ensures cloneDir.Ok? && cloneOk ==> clone.dir == cloneDir.value && !clone.removed && clone.status == Success
      ensures clone.status.Failure? ==>
        tag == "" && args == [] && st == clone.status
        && tempDir == old(tempDir) && contextDockerfile == old(contextDockerfile)
        && state.Snapshot() == old(state.Snapshot()) && store.files == old(store.files)
      ensures clone.status.Success? ==>
        tempDir == clone.dir
        && BuildImageOutcome(repo, config, clone.dir, writeOk, buildOk, homeOk, storeOk, store.writable,
                             clonedDockerfile, old(state.Snapshot()), old(store.files),
                             tag, args, st, contextDockerfile, state.Snapshot(), store.files)
    {
      clone := CloneRepository(config.repository, config.branch, cloneDir, cloneOk);
      if clone.status.Failure? {
        return "", clone, [], clone.status;
      }
      tempDir := clone.dir;
      contextDockerfile := clonedDockerfile;
      tag, args, st := BuildImage(repo, store, writeOk, buildOk, homeOk, storeOk);
    }
  }

  /** What `buildImage` leaves, run on the build context `dir` holding the
      Dockerfile `ctx0`, the MCP's record `rec0` and the builder store's files
      `files0`. The tag is returned on every path. The catalog's Dockerfile
      replaces the context's before `docker build` runs; a missing one or a
      failed write runs nothing. The record gets the tag only once the build
      succeeded, and only then is it saved, which needs the home directory,
      the store and a writable state file. Any failure leaves the store's
      files as they were. */
  ghost predicate BuildImageOutcome(repo: Repository, cfg: MCPConfig, dir: string,
                                    writeOk: bool, buildOk: bool, homeOk: bool, storeOk: bool, writable: bool,
                                    ctx0: Option<seq<bv8>>, rec0: Record, files0: map<string, StateFile>,
                                    tag: string, args: seq<string>, st: Status,
                                    ctx: Option<seq<bv8>>, rec: Record, files: map<string, StateFile>)
  {
    var df := repo.Dockerfile(cfg.dockerfile);
    && tag == ImageTag(cfg.name)
    && (df.Err? ==>
          st == Failure(DockerfileNotFound(cfg.dockerfile)) && args == [] && ctx == ctx0
          && rec == rec0 && files == files0)
    && (df.Ok? && !writeOk ==>
          st == Failure(DockerfileWriteFailed) && args == [] && ctx == ctx0 && rec == rec0 && files == files0)
    && (df.Ok? && writeOk ==> ctx == Some(df.value) && args == BuildArgs(cfg.name, dir))
    && (df.Ok? && writeOk && !buildOk ==> st == Failure(BuildFailed(cfg.name)) && rec == rec0 && files == files0)
    && (df.Ok? && writeOk && buildOk ==> rec == rec0.(localImageTag := tag))
    && (df.Ok? && writeOk && buildOk && !homeOk ==> st == Failure(HomeDirUnavailable) && files == files0)
    && (df.Ok? && writeOk && buildOk && homeOk && !storeOk ==> st == Failure(StoreUnavailable) && files == files0)
    && (df.Ok? && writeOk && buildOk && homeOk && storeOk && writable ==>
          st == Success && files == files0[FileName(rec.name) := Stored(rec)])
    && (df.Ok? && writeOk && buildOk && homeOk && storeOk && !writable ==>
          st == Failure(StateWriteFailed(rec.name)) && files == files0)
  }

  /** `NewBuilder`: a temporary build directory and the MCP's state as loaded
      from the builder's own store. `tempDir` is what creating the directory
      gave, `homeOk` whether the home directory is known and `storeOk` whether
      opening the builder's store (creating its directory) succeeds. */
  method NewBuilder(config: MCPConfig, tempDir: Result<string>, homeOk: bool, storeOk: bool, store: Store)
    returns (r: Result<Builder>)
    requires store.Valid()
    modifies store
    ensures store.Valid() && store.files == old(store.files)
    ensures tempDir.Err? ==> r == Err(TempDirFailed)
    ensures tempDir.Ok? && !homeOk ==> r == Err(HomeDirUnavailable)
    ensures tempDir.Ok? && homeOk && !storeOk ==> r == Err(StoreUnavailable)
    ensures tempDir.Ok? && homeOk && storeOk ==>
      store.dirExists && (r.Ok? <==> LoadRecord(store.files, config.name).Ok?)
    ensures r.Err? && tempDir.Ok? && homeOk && storeOk ==> r.error == LoadRecord(store.files, config.name).error
    ensures r.Ok? ==>
      fresh(r.value) && fresh(r.value.state) && r.value.config == config
      && r.value.tempDir == tempDir.value && r.value.contextDockerfile == None
      && r.value.state.Snapshot() == LoadRecord(store.files, config.name).value
  {
    if tempDir.Err? {
      return Err(TempDirFailed);
    }
    if !homeOk {
      return Err(HomeDirUnavailable);
    }
    var openSt := store.Open(storeOk);
    if openSt.Failure? {
      return Err(openSt.error);
    }
    var loaded := store.Load(config.name);
    if loaded.Err? {
      return Err(loaded.error);
    }
    var b := new Builder(config, tempDir.value, loaded.value);
    r := Ok(b);
  }
}

=== FILE: collections.dfy ===
/** Facts about sequences used as listings of a set. */
module Collections {

  /** A duplicate-free sequence covering exactly a set has the set's size. */
  lemma {:induction false} DistinctCount<T>(s: seq<T>, elems: set<T>)
    requires forall i, j :: 0 <= i < j < |s| ==> s[i] != s[j]
    requires forall x :: x in elems <==> x in s
    ensures |s| == |elems|
    decreases |s|
  {
    if |s| > 0 {
      var last := s[|s| - 1];
      var rest := s[..|s| - 1];
      assert forall x :: x in elems - {last} <==> x in rest by {
        forall x ensures x in elems - {last} <==> x in rest {
          if x in rest {
            var k :| 0 <= k < |rest| && rest[k] == x;
            assert s[k] == x;
          }
          if x in s && x != last {
            var k :| 0 <= k < |s| && s[k] == x;
            assert k < |s| - 1;
            assert rest[k] == x;
          }
        }
      }
      DistinctCount(rest, elems - {last});
    }
  }

  /** A prefix one longer is the prefix and the next element. */
  lemma TakeSnoc<T>(s: seq<T>, n: nat)
    requires n < |s|
    ensures s[..n + 1] == s[..n] + [s[n]]
  {
  }
}

=== FILE: config.dfy ===
/** The MCP definition as read from the embedded catalog (one YAML document per
    MCP). These are plain values: nothing in the core changes a definition. */
module Config {

  /** One declared environment variable; `kind` is the YAML `type` field, where
      "secret" marks a value that may be routed to the keychain. */
  datatype EnvironmentVariable = EnvironmentVariable(
    name: string,
    kind: string,
    description: string,
    required: bool)

  datatype MCPConfig = MCPConfig(
    name: string,
    repository: string,
    branch: string,
    dockerfile: string,
    environmentVars: seq<EnvironmentVariable>)

  predicate IsSecret(v: EnvironmentVariable)
  {
    v.kind == "secret"
  }
}

=== FILE: definitions.dfy ===
/** The embedded catalog of MCP definitions: one `<name>.yaml` document per MCP
    at the root, and Dockerfiles in sub-directories. `entries` is the root
    listing in directory order, `files` the content of every embedded file by
    path, and `parsed` the definition each YAML file decodes to (a YAML file
    missing from `parsed` does not decode). */
module Definitions {
  import opened Errors
  import opened Strings
  import Config

  datatype DirEntry = DirEntry(name: string, isDir: bool)

  /** A root entry that names a definition: a file ending in ".yaml". */
  predicate IsDefinitionEntry(e: DirEntry)
  {
    !e.isDir && HasSuffix(e.name, ".yaml")
  }

  /** The definition names of a listing, in listing order. */
  function DefinitionNames(entries: seq<DirEntry>): (names: seq<string>)
    ensures |names| <= |entries|
  {
    if entries == [] then []
    else
      var last := entries[|entries| - 1];
      DefinitionNames(entries[..|entries| - 1])
        + (if IsDefinitionEntry(last) then [TrimSuffix(last.name, ".yaml")] else [])
  }

  /** A name is listed exactly when some ".yaml" file entry carries it. */
  lemma {:induction false} DefinitionNamesMembership(entries: seq<DirEntry>, n: string)
    ensures n in DefinitionNames(entries) <==>
      exists i :: 0 <= i < |entries| && IsDefinitionEntry(entries[i]) && entries[i].name == n + ".yaml"
    decreases |entries|
  {
    if entries != [] {
      var k := |entries| - 1;
      var prefix := entries[..k];
      DefinitionNamesMembership(prefix, n);
      var last := entries[k];
      if IsDefinitionEntry(last) {
        TrimSuffixOfYaml(last.name, n);
      }
      if exists i :: 0 <= i < |entries| && IsDefinitionEntry(entries[i]) && entries[i].name == n + ".yaml" {
        var i :| 0 <= i < |entries| && IsDefinitionEntry(entries[i]) && entries[i].name == n + ".yaml";
        if i < k {
          assert prefix[i] == entries[i];
        }
      }
      if exists i :: 0 <= i < |prefix| && IsDefinitionEntry(prefix[i]) && prefix[i].name == n + ".yaml" {
        var i :| 0 <= i < |prefix| && IsDefinitionEntry(prefix[i]) && prefix[i].name == n + ".yaml";
        assert entries[i] == prefix[i];
      }
    }
  }

  /** For a ".yaml" file name, trimming gives `n` exactly when the name is `n + ".yaml"`. */
  lemma TrimSuffixOfYaml(name: string, n: string)
    requires HasSuffix(name, ".yaml")
    ensures TrimSuffix(name, ".yaml") == n <==> name == n + ".yaml"
  {
    if name == n + ".yaml" {
      TrimAppended(n, ".yaml");
    }
  }

  /** Listing order is kept: listing a prefix of the directory gives a prefix
      of the full list. */
  lemma {:induction false} DefinitionNamesPrefix(entries: seq<DirEntry>, k: nat)
    requires k <= |entries|
    ensures DefinitionNames(entries[..k]) <= DefinitionNames(entries)
    decreases |entries| - k
  {
    if k < |entries| {
      var n := |entries|;
      assert entries[..n - 1][..k] == entries[..k];
      DefinitionNamesPrefix(entries[..n - 1], k);
    } else {
      assert entries[..k] == entries;
    }
  }

  datatype Repository = Repository(
    entries: seq<DirEntry>,
    files: map<string, seq<bv8>>,
    parsed: map<string, Config.MCPConfig>)
  {
    /** Every file the root listing shows can be read. */
    predicate Valid()
    {
      forall i :: 0 <= i < |entries| && !entries[i].isDir ==> entries[i].name in files
    }

    /** `ListMCPs`: the ".yaml" file names at the root, suffix removed, in
        directory order. */
    method ListMCPs() returns (mcps: seq<string>)
      ensures mcps == DefinitionNames(entries)
      ensures forall n :: n in mcps <==>
        exists i :: 0 <= i < |entries| && IsDefinitionEntry(entries[i]) && entries[i].name == n + ".yaml"
    {
      mcps := [];
      for i := 0 to |entries|
        invariant mcps == DefinitionNames(entries[..i])
      {
        assert entries[..i + 1][..i] == entries[..i];
        var entry := entries[i];
        if !entry.isDir && HasSuffix(entry.name, ".yaml") {
          mcps := mcps + [TrimSuffix(entry.name, ".yaml")];
        }
      }
      assert entries[..|entries|] == entries;
      forall n ensures n in mcps <==>
        exists i :: 0 <= i < |entries| && IsDefinitionEntry(entries[i]) && entries[i].name == n + ".yaml"
      {
        DefinitionNamesMembership(entries, n);
      }
    }

    /** `MCPConfig`: the definition in `<name>.yaml`; a missing file is "not
        found", an undecodable one a parse error. */
    function MCPConfig(name: string): (r: Result<Config.MCPConfig>)
      ensures r.Ok? <==> name + ".yaml" in files && name + ".yaml" in parsed
      ensures r.Ok? ==> r.value == parsed[name + ".yaml"]
      ensures name + ".yaml" !in files ==> r == Err(DefinitionNotFound(name))
      ensures name + ".yaml" in files && name + ".yaml" !in parsed ==> r == Err(DefinitionMalformed(name))
    {
      var path := name + ".yaml";
      if path !in files then Err(DefinitionNotFound(name))
      else if path !in parsed then Err(DefinitionMalformed(name))
      else Ok(parsed[path])
    }

    /** `Dockerfile`: the bytes stored at `path`, or "not found". */
    function Dockerfile(path: string): (r: Result<seq<bv8>>)
      ensures r.Ok? <==> path in files
      ensures r.Ok? ==> r.value == files[path]
      ensures r.Err? ==> r == Err(DockerfileNotFound(path))
    {
      if path in files then Ok(files[path]) else Err(DockerfileNotFound(path))
    }
  }

  /** Every listed name can be looked up: `MCPConfig` never answers "not
      found" for a name that `ListMCPs` returned. */
  lemma ListedNamesAreFound(repo: Repository, n: string)
    requires repo.Valid()
    requires n in DefinitionNames(repo.entries)
    ensures repo.MCPConfig(n) != Err(DefinitionNotFound(n))
  {
    DefinitionNamesMembership(repo.entries, n);
  }
}

=== FILE: docker.dfy ===
/** The `docker` command lines the tool runs: `docker run` for an installed MCP
    and `docker rmi` on uninstall. Only the argument lists and the success of
    the process are modelled. */
module Docker {
  import opened Errors
  import opened Config
  import opened State

  /** The value of one `-e` flag. */
  function EnvAssignment(name: string, value: string): string
  {
    name + "=" + value
  }

  /** The `-e NAME=value` flags for the declared variables that have a value,
      in declaration order. */
  function EnvArgs(vars: seq<EnvironmentVariable>, env: map<string, string>): (r: seq<string>)
    ensures |r| == 2 * PresentCount(vars, env)
  {
    if vars == [] then []
    else
      var v := vars[|vars| - 1];
      EnvArgs(vars[..|vars| - 1], env)
        + (if v.name in env then ["-e", EnvAssignment(v.name, env[v.name])] else [])
  }

  /** How many declarations have a value in `env`. */
  function PresentCount(vars: seq<EnvironmentVariable>, env: map<string, string>): nat
  {
    if vars == [] then 0
    else PresentCount(vars[..|vars| - 1], env) + (if vars[|vars| - 1].name in env then 1 else 0)
  }

  /** Every flag is "-e" followed by the assignment of a declared variable
      that has a value. */
  ghost predicate FlagsSound(r: seq<string>, vars: seq<EnvironmentVariable>, env: map<string, string>)
  {
    forall p :: 0 <= p < |r| ==>
      (p % 2 == 0 ==> r[p] == "-e") &&
      (p % 2 == 1 ==> exists j :: 0 <= j < |vars| && vars[j].name in env
                                  && r[p] == EnvAssignment(vars[j].name, env[vars[j].name]))
  }

  /** Only declared variables are passed: a variable that is set in the state
      but not declared by the definition never appears. */
  lemma {:induction false} EnvArgsSound(vars: seq<EnvironmentVariable>, env: map<string, string>)
    ensures FlagsSound(EnvArgs(vars, env), vars, env)
    decreases |vars|
  {
    if vars != [] {
      var prefix := vars[..|vars| - 1];
      var last := vars[|vars| - 1];
      EnvArgsSound(prefix, env);
      var r := EnvArgs(vars, env);
      var rp := EnvArgs(prefix, env);
      assert |rp| % 2 == 0;
      forall p | 0 <= p < |r|
        ensures (p % 2 == 0 ==> r[p] == "-e") &&
          (p % 2 == 1 ==> exists j :: 0 <= j < |vars| && vars[j].name in env
                                      && r[p] == EnvAssignment(vars[j].name, env[vars[j].name]))
      {
        if p < |rp| {
          assert r[p] == rp[p];
          if p % 2 == 1 {
            var j :| 0 <= j < |prefix| && prefix[j].name in env
                     && rp[p] == EnvAssignment(prefix[j].name, env[prefix[j].name]);
            assert vars[j] == prefix[j];
          }
        } else {
          assert last.name in env && r == rp + ["-e", EnvAssignment(last.name, env[last.name])];
          if p == |rp| {
            assert r[p] == "-e";
          } else {
            assert r[p] == EnvAssignment(vars[|vars| - 1].name, env[vars[|vars| - 1].name]);
          }
        }
      }
      assert FlagsSound(r, vars, env);
    } else {
      assert EnvArgs(vars, env) == [];
    }
  }

  /** Every declared variable that has a value is passed, as "-e" followed by
      its assignment. */
  lemma {:induction false} EnvArgsComplete(vars: seq<EnvironmentVariable>, env: map<string, string>, j: nat)
    requires j < |vars| && vars[j].name in env
    ensures exists p :: 1 <= p < |EnvArgs(vars, env)| && EnvArgs(vars, env)[p - 1] == "-e"
                        && EnvArgs(vars, env)[p] == EnvAssignment(vars[j].name, env[vars[j].name])
    decreases |vars|
  {
    var prefix := vars[..|vars| - 1];
    var r := EnvArgs(vars, env);
    var rp := EnvArgs(prefix, env);
    if j < |vars| - 1 {
      assert prefix[j] == vars[j];
      EnvArgsComplete(prefix, env, j);
      var p :| 1 <= p < |rp| && rp[p - 1] == "-e" && rp[p] == EnvAssignment(vars[j].name, env[vars[j].name]);
      assert r[p - 1] == rp[p - 1] && r[p] == rp[p];
    } else {
      assert r == rp + ["-e", EnvAssignment(vars[j].name, env[vars[j].name])];
      assert r[|rp|] == "-e";
      assert r[|rp| + 1] == EnvAssignment(vars[j].name, env[vars[j].name]);
    }
  }

  /** The full `docker run` argument list. */
  function RunArgs(vars: seq<EnvironmentVariable>, env: map<string, string>, tag: string): (r: seq<string>)
    ensures |r| == 3 + 2 * PresentCount(vars, env) + 1
    ensures r[..3] == ["run", "--rm", "-i"]
    ensures r[3..|r| - 1] == EnvArgs(vars, env)
    ensures r[|r| - 1] == tag
  {
    ["run", "--rm", "-i"] + EnvArgs(vars, env) + [tag]
  }

  /** The `docker rmi` argument list; forcing makes a missing image no error. */
  function DeleteImageArgs(imageName: string): (r: seq<string>)
    ensures |r| == 3 && r[..2] == ["rmi", "--force"] && r[2] == imageName
  {
    ["rmi", "--force", imageName]
  }

  /** `docker rmi --force <image>`; `exitOk` is whether the process succeeds. */
  method DeleteImage(imageName: string, exitOk: bool) returns (args: seq<string>, st: Status)
    ensures args == DeleteImageArgs(imageName)
    ensures st == (if exitOk then Success else Failure(ImageDeleteFailed(imageName)))
  {
    args := ["rmi", "--force", imageName];
    st := if exitOk then Success else Failure(ImageDeleteFailed(imageName));
  }

  /** Runs an MCP's container with the variables its definition declares. */
  class Runner {
    const config: MCPConfig
    const state: MCPServer

    constructor (config0: MCPConfig, state0: MCPServer)
      ensures config == config0 && state == state0
    {
      config := config0;
      state := state0;
    }

    /** Builds the `docker run` arguments from the definition and the current
        state and runs them; `exitOk` is whether the container exits cleanly. */
    method Run(exitOk: bool) returns (args: seq<string>, st: Status)
      ensures args == RunArgs(config.environmentVars, state.environmentVariables, state.localImageTag)
      ensures st == (if exitOk then Success else Failure(RunFailed))
    {
      args := ["run", "--rm", "-i"];
      var vars := config.environmentVars;
      for i := 0 to |vars|
        invariant args == ["run", "--rm", "-i"] + EnvArgs(vars[..i], state.environmentVariables)
      {
        assert vars[..i + 1][..i] == vars[..i];
        var (value, exists_) := state.GetEnvironmentVariable(vars[i].name);
        if exists_ {
          args := args + ["-e", EnvAssignment(vars[i].name, value)];
        }
      }
      assert vars[..|vars|] == vars;
      args := args + [state.localImageTag];
      st := if exitOk then Success else Failure(RunFailed);
    }
  }
}

=== FILE: errors.dfy ===
/** Failure-carrying values shared by every component of the lifecycle model.
    Go returns `(value, error)` pairs and bare `error`s; here a `Result` carries
    either the value or the error, and a `Status` stands for a bare `error`. */
module Errors {

  datatype Option<+T> = None | Some(value: T)

  /** The kinds of failure the commands can surface. Messages are not modelled,
      only which failure happened and the name it concerns. */
  datatype Error =
    | MissingArgument
    | DefinitionNotFound(name: string)
    | DefinitionMalformed(name: string)
    | DockerfileNotFound(path: string)
    | StoreUnavailable
    | StateUnreadable(name: string)
    | StateWriteFailed(name: string)
    | StateDeleteFailed(name: string)
    | StateDirUnreadable
    | ConfigUnreadable
    | ConfigMalformed
    | ConfigWriteFailed
    | Conflict(server: string, existingCommand: string)
    | HostNotFound(host: string)
    | KeyNotFound(account: string)
    | SecretStoreFailed(account: string)
    | PromptFailed
    | SelectionOutOfRange(index: int)
    | TempDirFailed
    | CloneFailed(repository: string)
    | DockerfileWriteFailed
    | BuildFailed(name: string)
    | HomeDirUnavailable
    | ImageDeleteFailed(tag: string)
    | RunFailed

  datatype Result<+T> = Ok(value: T) | Err(error: Error)

  /** A Go `error` return: nil is `Success`. */
  datatype Status = Success | Failure(error: Error)
}

=== FILE: git.dfy ===
/** The shallow `git clone` that fetches an MCP's source tree into a fresh
    temporary directory. */
module Git {
  import opened Errors

  /** The clone command line: shallow, on the given branch when there is one,
      into `dir`. */
  function CloneArgs(repoURL: string, branch: string, dir: string): (r: seq<string>)
    ensures |r| == (if branch != "" then 6 else 4)
    ensures r[..2] == ["clone", "--depth=1"]
    ensures branch != "" ==> r[2..4] == ["-b", branch]
    ensures r[|r| - 2..] == [repoURL, dir]
  {
    ["clone", "--depth=1"] + (if branch != "" then ["-b", branch] else []) + [repoURL, dir]
  }

  datatype CloneOutcome = CloneOutcome(
    dir: string,          // the returned path ("" on failure)
    args: seq<string>,    // the git arguments run ([] when none was run)
    removed: bool,        // whether the temporary directory was removed again
    status: Status)

  /** `CloneRepository`. `tempDir` is what creating the temporary directory
      gave, `cloneOk` whether `git clone` exits cleanly. A failed clone removes
      the directory and returns "". */
  method CloneRepository(repoURL: string, branch: string, tempDir: Result<string>, cloneOk: bool)
    returns (r: CloneOutcome)
    ensures tempDir.Err? ==> r == CloneOutcome("", [], false, Failure(TempDirFailed))
    ensures tempDir.Ok? ==> r.args == CloneArgs(repoURL, branch, tempDir.value)
    ensures tempDir.Ok? && !cloneOk ==> r.dir == "" && r.removed && r.status == Failure(CloneFailed(repoURL))
    ensures tempDir.Ok? && cloneOk ==> r.dir == tempDir.value && !r.removed && r.status == Success
  {
    if tempDir.Err? {
      return CloneOutcome("", [], false, Failure(TempDirFailed));
    }
    var dir := tempDir.value;
    var args := ["clone", "--depth=1"];
    if branch != "" {
      args := args + ["-b", branch];
    }
    args := args + [repoURL, dir];
    if !cloneOk {
      return CloneOutcome("", args, true, Failure(CloneFailed(repoURL)));
    }
    r := CloneOutcome(dir, args, false, Success);
  }
}

=== FILE: hosts.dfy ===
/** The host connectors for cline and cursor. Each owns one JSON config file
    of shape {"mcpServers": {<name>: {command, args, envs}}}; connecting and
    disconnecting are a read-modify-write of that file that touches only the
    entry named after the MCP. The two connectors differ only in their name,
    where their file lives and when they count as available. */
module HostConnectors {
  import opened Errors

  datatype ServerEntry = ServerEntry(command: string, args: seq<string>, envs: map<string, string>)

  type Servers = map<string, ServerEntry>

  /** The host's config file as the connector finds it: absent, unreadable,
      not valid JSON, or decoded (with a null or missing "mcpServers" as None). */
  datatype ConfigFile = Missing | Unreadable | Malformed | Parsed(mcpServers: Option<Servers>)

  /** `loadConfig`: a missing file and a null server map both give the empty
      map; only a read or parse failure is an error. */
  function LoadConfig(f: ConfigFile): (r: Result<Servers>)
    ensures f.Missing? ==> r == Ok(map[])
    ensures f == Parsed(None) ==> r == Ok(map[])
    ensures f.Parsed? && f.mcpServers.Some? ==> r == Ok(f.mcpServers.value)
    ensures r.Err? <==> f.Unreadable? || f.Malformed?
  {
    match f
    case Missing => Ok(map[])
    case Unreadable => Err(ConfigUnreadable)
    case Malformed => Err(ConfigMalformed)
    case Parsed(servers) => if servers.Some? then Ok(servers.value) else Ok(map[])
  }

  /** The entry written for a newly connected server: this binary, run with the
      server's name, with HOME passed through. */
  function NewEntry(binaryPath: string, server: string, home: string): ServerEntry
  {
    ServerEntry(binaryPath, ["run", server], map["HOME" := home])
  }

  /** `Connect` on the file contents: the new file and the returned status.
      The file is rewritten only when a new entry is inserted. */
  function ConnectFile(f: ConfigFile, writable: bool, home: string, binaryPath: string, server: string)
    : (r: (ConfigFile, Status))
    ensures LoadConfig(f).Err? ==> r == (f, Failure(LoadConfig(f).error))
    ensures LoadConfig(f).Ok? && server in LoadConfig(f).value ==>
      var existing := LoadConfig(f).value[server];
      r.0 == f &&
      (existing.command == binaryPath ==> r.1 == Success) &&
      (existing.command != binaryPath ==> r.1 == Failure(Conflict(server, existing.command)))
    ensures LoadConfig(f).Ok? && server !in LoadConfig(f).value && !writable ==>
      r == (f, Failure(ConfigWriteFailed))
    ensures LoadConfig(f).Ok? && server !in LoadConfig(f).value && writable ==>
      r.1 == Success && r.0.Parsed? && r.0.mcpServers.Some? &&
      var after := r.0.mcpServers.value;
      server in after && after[server] == NewEntry(binaryPath, server, home) &&
      after.Keys == LoadConfig(f).value.Keys + {server} &&
      forall k :: k in LoadConfig(f).value ==> after[k] == LoadConfig(f).value[k]
  {
    match LoadConfig(f)
    case Err(e) => (f, Failure(e))
    case Ok(servers) =>
      if server in servers then
        if servers[server].command != binaryPath then (f, Failure(Conflict(server, servers[server].command)))
        else (f, Success)
      else if writable then (Parsed(Some(servers[server := NewEntry(binaryPath, server, home)])), Success)
      else (f, Failure(ConfigWriteFailed))
  }

  /** `Disconnect` on the file contents: the new file, whether the server was
      configured, and the returned status. */
  function DisconnectFile(f: ConfigFile, writable: bool, server: string): (r: (ConfigFile, bool, Status))
    ensures LoadConfig(f).Err? ==> r == (f, false, Failure(LoadConfig(f).error))
    ensures LoadConfig(f).Ok? && server !in LoadConfig(f).value ==> r == (f, false, Success)
    ensures LoadConfig(f).Ok? && server in LoadConfig(f).value && !writable ==>
      r == (f, true, Failure(ConfigWriteFailed))
    ensures LoadConfig(f).Ok? && server in LoadConfig(f).value && writable ==>
      r.1 && r.2 == Success && r.0.Parsed? && r.0.mcpServers.Some? &&
      var after := r.0.mcpServers.value;
      after.Keys == LoadConfig(f).value.Keys - {server} &&
      forall k :: k in after ==> after[k] == LoadConfig(f).value[k]
  {
    match LoadConfig(f)
    case Err(e) => (f, false, Failure(e))
    case Ok(servers) =>
      if server !in servers then (f, false, Success)
      else if writable then (Parsed(Some(servers - {server})), true, Success)
      else (f, true, Failure(ConfigWriteFailed))
  }

  /** Connecting a second time with the same binary changes nothing and
      succeeds again. */
  lemma ConnectIdempotent(f: ConfigFile, writable: bool, home: string, binaryPath: string, server: string)
    requires ConnectFile(f, writable, home, binaryPath, server).1 == Success
    ensures var once := ConnectFile(f, writable, home, binaryPath, server).0;
      ConnectFile(once, writable, home, binaryPath, server) == (once, Success)
  {
  }

  /** Once one binary is connected under a name, connecting another binary
      under that name is a conflict naming the first, and leaves the file as
      it was. */
  lemma ConnectOtherBinaryConflicts(f: ConfigFile, writable: bool, home: string,
                                    pathA: string, pathB: string, server: string)
    requires pathA != pathB
    requires ConnectFile(f, writable, home, pathA, server).1 == Success
    ensures var once := ConnectFile(f, writable, home, pathA, server).0;
      ConnectFile(once, writable, home, pathB, server) == (once, Failure(Conflict(server, pathA)))
  {
  }

  /** Disconnect after a successful connect reports the server as present,
      removes it, and keeps every entry that was there before the connect. */
  lemma ConnectThenDisconnect(f: ConfigFile, home: string, binaryPath: string, server: string)
    requires LoadConfig(f).Ok? && server !in LoadConfig(f).value
    ensures var once := ConnectFile(f, true, home, binaryPath, server).0;
      var (after, wasPresent, st) := DisconnectFile(once, true, server);
      wasPresent && st == Success && after == Parsed(Some(LoadConfig(f).value))
  {
    var before := LoadConfig(f).value;
    var once := ConnectFile(f, true, home, binaryPath, server).0;
    assert once.mcpServers.value - {server} == before;
  }

  /** Disconnecting twice: the second call finds nothing and writes nothing. */
  lemma DisconnectIdempotent(f: ConfigFile, writable: bool, server: string)
    requires DisconnectFile(f, writable, server).2 == Success
    ensures var once := DisconnectFile(f, writable, server).0;
      DisconnectFile(once, writable, server) == (once, false, Success)
  {
  }

  /** A disconnect succeeds exactly when it leaves a readable file without
      an entry for the server; a failed one leaves the file as it was. */
  lemma DisconnectSucceedsIffGone(f: ConfigFile, writable: bool, server: string)
    ensures var (after, _, st) := DisconnectFile(f, writable, server);
      (st == Success <==> LoadConfig(after).Ok? && server !in LoadConfig(after).value)
      && (st.Failure? ==> after == f)
  {
  }

  datatype HostKind = Cline | Cursor

  /** `filepath.Join` over already clean elements: empty elements are dropped
      and the rest joined with the separator. */
  function JoinPath(sep: char, parts: seq<string>): (r: string)
    ensures (exists i :: 0 <= i < |parts| && parts[i] != "") ==> r != ""
  {
    if parts == [] then ""
    else
      var rest := JoinPath(sep, parts[1..]);
      if parts[0] == "" then
        assert forall i :: 1 <= i < |parts| ==> parts[i] == parts[1..][i - 1];
        rest
      else if rest == "" then parts[0]
      else parts[0] + [sep] + rest
  }

  /** cline's settings folder for an operating system, or "" for an
      operating system cline does not support. */
  function ClineConfigFolder(goos: string, home: string, appData: string): (r: string)
    ensures r == "" <==> goos != "darwin" && goos != "windows" && goos != "linux"
  {
    if goos == "darwin" then
      var parts := [home, "Library", "Application Support", "Code", "User", "globalStorage",
                    "saoudrizwan.claude-dev", "settings"];
      assert parts[1] != "";
      JoinPath('/', parts)
    else if goos == "windows" then
      var parts := [appData, "Code", "User", "globalStorage", "saoudrizwan.claude-dev", "settings"];
      assert parts[1] != "";
      JoinPath('\\', parts)
    else if goos == "linux" then
      var parts := [home, ".config", "Code", "User", "globalStorage", "saoudrizwan.claude-dev", "settings"];
      assert parts[1] != "";
      JoinPath('/', parts)
    else ""
  }

  /** One connector. It holds no state of its own: the environment it reads
      (operating system, HOME, APPDATA), the directories that exist and
      whether its config file can be written are fixed, and the config file
      it reads and rewrites is passed in and handed back. */
  datatype HostConnector = HostConnector(
    kind: HostKind,
    goos: string,
    home: string,
    appData: string,
    directories: set<string>,
    writable: bool)
  {
    function Name(): (r: string)
      ensures kind.Cline? ==> r == "cline"
      ensures kind.Cursor? ==> r == "cursor"
    {
      match kind
      case Cline => "cline"
      case Cursor => "cursor"
    }

    /** cursor can always create its file; cline needs its settings folder to
        exist as a directory, which an unsupported operating system never has. */
    predicate Available()
      ensures kind.Cursor? ==> Available()
      ensures kind.Cline? ==>
        (Available() <==> ClineConfigFolder(goos, home, appData) != ""
                          && ClineConfigFolder(goos, home, appData) in directories)
    {
      match kind
      case Cursor => true
      case Cline =>
        var folder := ClineConfigFolder(goos, home, appData);
        if folder == "" then false else folder in directories
    }

    /** Idempotent upsert of the entry for `server` in the config file `file`,
        conflicting with an entry that runs a different binary. */
    method Connect(file: ConfigFile, binaryPath: string, server: string) returns (after: ConfigFile, st: Status)
      ensures (after, st) == ConnectFile(file, writable, home, binaryPath, server)
    {
      after := file;
      var loaded := LoadConfig(file);
      if loaded.Err? {
        return after, Failure(loaded.error);
      }
      var servers := loaded.value;
      if server in servers {
        var existing := servers[server];
        if existing.command != binaryPath {
          return after, Failure(Conflict(server, existing.command));
        }
        return after, Success;
      }
      servers := servers[server := NewEntry(binaryPath, server, home)];
      if !writable {
        return after, Failure(ConfigWriteFailed);
      }
      after := Parsed(Some(servers));
      st := Success;
    }

    /** Removal of the entry for `server` from the config file `file`;
        reports whether it was there, also when writing the file back fails. */
    method Disconnect(file: ConfigFile, server: string) returns (after: ConfigFile, wasPresent: bool, st: Status)
      ensures (after, wasPresent, st) == DisconnectFile(file, writable, server)
    {
      after := file;
      var loaded := LoadConfig(file);
      if loaded.Err? {
        return after, false, Failure(loaded.error);
      }
      var servers := loaded.value;
      if server !in servers {
        return after, false, Success;
      }
      servers := servers - {server};
      if !writable {
        return after, true, Failure(ConfigWriteFailed);
      }
      after := Parsed(Some(servers));
      wasPresent, st := true, Success;
    }
  }
}

=== FILE: install.dfy ===
/** `smp install <name>`: builds an MCP's image, asks for its environment
    variables, connects it in the hosts the user picks and saves its state.
    Host connection is best effort: a host that fails is reported and skipped,
    and only the hosts that succeeded are recorded in the state. */
module InstallCommand {
  import opened Errors
  import opened Config
  import opened State
  import opened Keystore
  import opened Definitions
  import opened HostConnectors
  import opened HostManager
  import opened Prompt
  import opened Collections

  /** The hosts whose connect succeeded, in the order they were tried. */
  function Successes(selected: seq<string>, results: seq<Status>): (r: seq<string>)
    requires |results| == |selected|
    ensures |r| <= |selected|
  {
    if selected == [] then []
    else
      var n := |selected| - 1;
      Successes(selected[..n], results[..n]) + (if results[n] == Success then [selected[n]] else [])
  }

  /** Trying one more host extends the recorded hosts by that host exactly
      when its connect succeeded. */
  lemma SuccessesAppend(selected: seq<string>, results: seq<Status>, h: string, connected: Status)
    requires |results| == |selected|
    ensures Successes(selected + [h], results + [connected])
      == Successes(selected, results) + (if connected == Success then [h] else [])
  {
    assert (selected + [h])[..|selected|] == selected;
    assert (results + [connected])[..|results|] == results;
  }

  /** A host is recorded exactly when one of its connects succeeded. */
  lemma {:induction false} SuccessesMembership(selected: seq<string>, results: seq<Status>, h: string)
    requires |results| == |selected|
    ensures h in Successes(selected, results) <==>
      exists i :: 0 <= i < |selected| && selected[i] == h && results[i] == Success
    decreases |selected|
  {
    if selected != [] {
      var n := |selected| - 1;
      SuccessesMembership(selected[..n], results[..n], h);
      if exists i :: 0 <= i < |selected| && selected[i] == h && results[i] == Success {
        var i :| 0 <= i < |selected| && selected[i] == h && results[i] == Success;
        if i < n {
          assert selected[..n][i] == h && results[..n][i] == Success;
        }
      }
      if exists i :: 0 <= i < n && selected[..n][i] == h && results[..n][i] == Success {
        var i :| 0 <= i < n && selected[..n][i] == h && results[..n][i] == Success;
        assert selected[i] == h && results[i] == Success;
      }
    }
  }

  /** The config file `f` runs `server` through the binary `binaryPath`. */
  predicate RunsBinary(f: ConfigFile, server: string, binaryPath: string)
  {
    LoadConfig(f).Ok? && server in LoadConfig(f).value && LoadConfig(f).value[server].command == binaryPath
  }

  /** Among the hosts' config files `files`, host `h`'s file runs `server`
      through the binary `binaryPath`. */
  predicate Connected(files: map<string, ConfigFile>, h: string, server: string, binaryPath: string)
  {
    h in files && RunsBinary(files[h], server, binaryPath)
  }

  /** A connect succeeds exactly when it leaves the host's file running the
      server through this binary: an existing entry for another binary is a
      conflict, and a file that cannot be loaded or written is left as it was.
      A file that already runs it is left as it is. */
  lemma ConnectSucceedsIffRuns(f: ConfigFile, writable: bool, home: string, binaryPath: string, server: string)
    ensures var (after, st) := ConnectFile(f, writable, home, binaryPath, server);
      (st == Success <==> RunsBinary(after, server, binaryPath))
      && (RunsBinary(f, server, binaryPath) ==> after == f && st == Success)
  {
  }

  /** What the connect loop has established once `|results|` hosts of
      `selected` were tried, over the hosts' config files `files`: every
      success left its host running the server, and an unknown host failed
      as such. */
  ghost predicate Tried(selected: seq<string>, results: seq<Status>, files: map<string, ConfigFile>,
                        server: string, binaryPath: string)
    requires |results| <= |selected|
  {
    var n := |results|;
    && (forall i :: 0 <= i < n && results[i] == Success ==> Connected(files, selected[i], server, binaryPath))
    && (forall i :: 0 <= i < n && selected[i] !in files ==> results[i] == Failure(HostNotFound(selected[i])))
  }

  /** Trying one more host keeps `Tried`: only that host's file changes, and
      a host that already runs the server keeps running it. */
  lemma TriedStep(selected: seq<string>, results: seq<Status>, files: map<string, ConfigFile>,
                  server: string, binaryPath: string, connected: Status, newFile: ConfigFile)
    requires |results| < |selected| && Tried(selected, results, files, server, binaryPath)
    requires selected[|results|] !in files ==> connected == Failure(HostNotFound(selected[|results|]))
    requires selected[|results|] in files ==>
      (connected == Success <==> RunsBinary(newFile, server, binaryPath))
      && (RunsBinary(files[selected[|results|]], server, binaryPath) ==> newFile == files[selected[|results|]])
    ensures var h := selected[|results|];
      Tried(selected, results + [connected], if h in files then files[h := newFile] else files, server, binaryPath)
  {
    var n := |results|;
    var h := selected[n];
    var files' := if h in files then files[h := newFile] else files;
    var results' := results + [connected];
    forall i | 0 <= i < n + 1 && results'[i] == Success
      ensures Connected(files', selected[i], server, binaryPath)
    {
      if i < n {
        assert results[i] == Success;
      }
    }
    forall i | 0 <= i < n + 1 && selected[i] !in files'
      ensures results'[i] == Failure(HostNotFound(selected[i]))
    {
      if i < n {
        assert results'[i] == results[i];
      }
    }
  }

  /** One pass of the connect loop as a value: host `h` is connected through
      its connector on the config files `files` as the earlier passes left
      them, and its result is appended to `results`; an unknown host fails as
      such and changes no file. */
  function ConnectStep(files: map<string, ConfigFile>, results: seq<Status>, hosts: map<string, HostConnector>,
                       binaryPath: string, server: string, h: string): (r: (map<string, ConfigFile>, seq<Status>))
    ensures r.0.Keys == files.Keys && |r.1| == |results| + 1 && r.1[..|results|] == results
  {
    if h in hosts && h in files then
      var (after, st) := ConnectFile(files[h], hosts[h].writable, hosts[h].home, binaryPath, server);
      (files[h := after], results + [st])
    else (files, results + [Failure(HostNotFound(h))])
  }

  /** The connect loop of `install` as a value: the hosts of `selected` in
      order, each connected on the files the earlier ones left, whatever the
      earlier results were. The final files and every host's result. */
  function ConnectAll(files: map<string, ConfigFile>, hosts: map<string, HostConnector>, binaryPath: string,
                      server: string, selected: seq<string>): (r: (map<string, ConfigFile>, seq<Status>))
    ensures r.0.Keys == files.Keys && |r.1| == |selected|
  {
    if selected == [] then (files, [])
    else
      var n := |selected| - 1;
      var (before, results) := ConnectAll(files, hosts, binaryPath, server, selected[..n]);
      ConnectStep(before, results, hosts, binaryPath, server, selected[n])
  }

  /** One more host is one more `ConnectStep`. */
  lemma ConnectAllSnoc(files: map<string, ConfigFile>, hosts: map<string, HostConnector>, binaryPath: string,
                       server: string, selected: seq<string>, n: nat)
    requires n < |selected|
    ensures ConnectAll(files, hosts, binaryPath, server, selected[..n + 1])
      == ConnectStep(ConnectAll(files, hosts, binaryPath, server, selected[..n]).0,
                     ConnectAll(files, hosts, binaryPath, server, selected[..n]).1,
                     hosts, binaryPath, server, selected[n])
  {
    assert selected[..n + 1][..n] == selected[..n];
  }

  /** Over config files for exactly the known hosts, the connect loop is
      `Tried`: every success left its host running the server through this
      binary, and an unknown host failed as such. */
  lemma {:induction false} ConnectAllTried(files: map<string, ConfigFile>, hosts: map<string, HostConnector>,
                                           binaryPath: string, server: string, selected: seq<string>)
    requires files.Keys == hosts.Keys
    ensures var (after, results) := ConnectAll(files, hosts, binaryPath, server, selected);
      Tried(selected, results, after, server, binaryPath)
    decreases |selected|
  {
    if selected != [] {
      var n := |selected| - 1;
      var prefix := selected[..n];
      ConnectAllTried(files, hosts, binaryPath, server, prefix);
      var (before, results) := ConnectAll(files, hosts, binaryPath, server, prefix);
      assert Tried(selected, results, before, server, binaryPath) by {
        assert forall i :: 0 <= i < n ==> selected[i] == prefix[i];
      }
      var h := selected[n];
      if h in hosts {
        ConnectSucceedsIffRuns(before[h], hosts[h].writable, hosts[h].home, binaryPath, server);
        var (after, st) := ConnectFile(before[h], hosts[h].writable, hosts[h].home, binaryPath, server);
        TriedStep(selected, results, before, server, binaryPath, st, after);
      } else {
        TriedStep(selected, results, before, server, binaryPath, Failure(HostNotFound(h)), Missing);
      }
    }
  }

  /** The connect loop changes no file of a host outside the selection. */
  lemma {:induction false} ConnectAllFrame(files: map<string, ConfigFile>, hosts: map<string, HostConnector>,
                                           binaryPath: string, server: string, selected: seq<string>, k: string)
    requires k in files && k !in selected
    ensures ConnectAll(files, hosts, binaryPath, server, selected).0[k] == files[k]
    decreases |selected|
  {
    if selected != [] {
      var n := |selected| - 1;
      ConnectAllFrame(files, hosts, binaryPath, server, selected[..n], k);
    }
  }

  /** The connect loop over the selected hosts: each host is connected on
      the files the earlier ones left, as `ConnectAll` states, so every host
      is tried and a failure only skips that host (`Tried`); no host outside
      the selection has its file changed. `results` is what each connect
      returned; the successes are the hosts `install` records (see
      `Successes`). */
  method ConnectSelected(manager: Manager, selected: seq<string>, server: string)
    returns (results: seq<Status>)
    requires manager.Valid()
    modifies manager
    ensures manager.Valid()
    ensures (manager.files, results) == ConnectAll(old(manager.files), manager.hosts, manager.binaryPath, server, selected)
    ensures |results| == |selected|
    ensures Tried(selected, results, manager.files, server, manager.binaryPath)
    ensures forall k :: k in old(manager.files) && k !in selected ==> manager.files[k] == old(manager.files[k])
  {
    results := [];
    for n := 0 to |selected|
      invariant manager.Valid()
      invariant (manager.files, results)
        == ConnectAll(old(manager.files), manager.hosts, manager.binaryPath, server, selected[..n])
    {
      ConnectAllSnoc(old(manager.files), manager.hosts, manager.binaryPath, server, selected, n);
      var connected := manager.Connect(selected[n], server);
      results := results + [connected];
    }
    assert selected[..|selected|] == selected;
    ConnectAllTried(old(manager.files), manager.hosts, manager.binaryPath, server, selected);
    forall k | k in old(manager.files) && k !in selected
      ensures manager.files[k] == old(manager.files[k])
    {
      ConnectAllFrame(old(manager.files), manager.hosts, manager.binaryPath, server, selected, k);
    }
  }

  /** The steps before any prompt, as one outcome: the definition and the
      loaded state with the built image's tag recorded, or the first error of
      the argument check, the definition lookup, opening the store, the build
      and the state load, in that order. `built` is what building the image
      gave: its tag or its error. */
  function Prepared(args: seq<string>, repo: Repository, storeOk: bool,
                    files: map<string, StateFile>, built: Result<string>): (r: Result<(MCPConfig, Record)>)
    ensures r.Ok? <==> |args| > 0 && repo.MCPConfig(args[0]).Ok? && storeOk && built.Ok?
                        && LoadRecord(files, args[0]).Ok?
    ensures r.Ok? ==> r.value.0 == repo.MCPConfig(args[0]).value
                      && r.value.1.localImageTag == built.value
                      && r.value.1.(localImageTag := "") == LoadRecord(files, args[0]).value.(localImageTag := "")
    ensures |args| == 0 ==> r == Err(MissingArgument)
    ensures |args| > 0 && !storeOk && repo.MCPConfig(args[0]).Ok? ==> r == Err(StoreUnavailable)
  {
    if |args| < 1 then Err(MissingArgument)
    else
      match repo.MCPConfig(args[0])
      case Err(e) => Err(e)
      case Ok(cfg) =>
        if !storeOk then Err(StoreUnavailable)
        else match built
          case Err(e) => Err(e)
          case Ok(tag) =>
            match LoadRecord(files, args[0])
            case Err(e) => Err(e)
            case Ok(rec) => Ok((cfg, rec.(localImageTag := tag)))
  }

  /** The record the prompts leave: the collected variables and keychain
      references. */
  function Prompted(rec: Record, q: Progress): Record
  {
    rec.(environmentVariables := q.env, keyChainEnvVars := q.refs)
  }

  /** What saving `rec` into a state directory holding `before` leaves: the
      record replaces its file, or, when the file cannot be written (`ok`
      false), the save fails and nothing changes. The store was opened before,
      so the directory exists. */
  predicate SaveOutcome(ok: bool, before: map<string, StateFile>, rec: Record,
                        after: map<string, StateFile>, st: Status)
  {
    if ok then st == Success && after == before[FileName(rec.name) := Stored(rec)]
    else st == Failure(StateWriteFailed(rec.name)) && after == before
  }

  /** The `install` action. `args` are the command's arguments, `storeOk`
      whether the home state store can be opened, `built` the outcome of
      building the image, `goos`, `confirm` and `answers` the environment
      variable prompts (see `PromptEnvironmentVariables`) and `picked` the
      host multi-select's answer. `available` is the hosts offered,
      `selection` the hosts picked and `results` each host's connect result. */
  method Install(args: seq<string>, repo: Repository, storeOk: bool, store: Store, built: Result<string>,
                 goos: string, confirm: Option<bool>, answers: seq<Option<string>>, kc: KeyChain,
                 manager: Manager, picked: Option<seq<int>>)
    returns (available: seq<string>, selection: Result<seq<string>>, results: seq<Status>, st: Status)
    requires store.Valid() && manager.Valid()
    modifies store, kc, manager
    ensures store.Valid() && manager.Valid()
    ensures Prepared(args, repo, storeOk, old(store.files), built).Err? ==>
      st == Failure(Prepared(args, repo, storeOk, old(store.files), built).error)
      && store.files == old(store.files) && kc.items == old(kc.items) && manager.files == old(manager.files)
    ensures Prepared(args, repo, storeOk, old(store.files), built).Ok? ==>
      var (cfg, rec) := Prepared(args, repo, storeOk, old(store.files), built).value;
      var choice := KeychainChoice(goos, cfg.environmentVars, confirm);
      var q := Collect(Progress(rec.environmentVariables, rec.keyChainEnvVars, old(kc.items), 0, false),
                       cfg.name, cfg.environmentVars, choice.Ok? && choice.value, kc.writable, answers);
      && (choice.Err? ==> kc.items == old(kc.items))
      && (choice.Ok? ==> kc.items == q.secrets)
      && (choice.Err? || q.failed ==>
            st == Failure(PromptFailed) && store.files == old(store.files) && manager.files == old(manager.files))
      && (choice.Ok? && !q.failed ==>
            HostsConfigured(manager, old(manager.files), manager.files, args[0], picked, available, selection, results)
            && (selection.Err? ==> st == Failure(selection.error) && store.files == old(store.files))
            && (selection.Ok? ==>
                  SaveOutcome(store.writable, old(store.files),
                              Prompted(rec, q).(configuredHosts := rec.configuredHosts
                                                  + Successes(selection.value, results)),
                              store.files, st)))
  {
    available, selection, results := [], Ok([]), [];
    var prepared := Prepare(args, repo, storeOk, store, built);
    if prepared.Err? {
      return available, selection, results, Failure(prepared.error);
    }
    var (cfg, s) := prepared.value;
    ghost var rec := s.Snapshot();
    var name := args[0];
    var prompted := PromptEnvironmentVariables(cfg, s, kc, goos, confirm, answers);
    if prompted.Failure? {
      return available, selection, results, prompted;
    }
    ghost var choice := KeychainChoice(goos, cfg.environmentVars, confirm);
    ghost var q := Collect(Progress(rec.environmentVariables, rec.keyChainEnvVars, old(kc.items), 0, false),
                           cfg.name, cfg.environmentVars, choice.Ok? && choice.value, kc.writable, answers);
    assert s.Snapshot() == Prompted(rec, q);
    available, selection, results := ConfigureHosts(manager, name, picked);
    if selection.Err? {
      return available, selection, results, Failure(selection.error);
    }
    s.configuredHosts := s.configuredHosts + Successes(selection.value, results);
    assert s.Snapshot() == Prompted(rec, q).(configuredHosts := rec.configuredHosts + Successes(selection.value, results));
    st := store.Save(s);
  }

  /** What the host prompt of `install` leaves, given the hosts' config files
      `before` it: `available` lists the available hosts, `selection` is the
      multi-select's answer over them (pre-selected: all of them), and for a
      selection every picked host was tried, each success left its host
      running `name` through this binary, and no other host's file changed. */
  ghost predicate HostsConfigured(m: Manager, before: map<string, ConfigFile>, after: map<string, ConfigFile>,
                                  name: string, picked: Option<seq<int>>,
                                  available: seq<string>, selection: Result<seq<string>>, results: seq<Status>)
  {
    && |available| == |m.AvailableKeys()|
    && (forall n :: n in available <==> exists k :: k in m.AvailableKeys() && m.hosts[k].Name() == n)
    && (|available| == 0 ==> selection == Ok([]))
    && (|available| > 0 && picked.None? ==> selection == Err(PromptFailed))
    && (|available| > 0 && picked.Some?
        && (forall k :: 0 <= k < |picked.value| ==> 0 <= picked.value[k] < |available|) ==>
          selection.Ok? && |selection.value| == |picked.value|
          && forall k :: 0 <= k < |picked.value| ==> selection.value[k] == available[picked.value[k]])
    && (picked.Some? && selection.Err? ==>
          exists k :: 0 <= k < |picked.value| && !(0 <= picked.value[k] < |available|)
            && selection.error == SelectionOutOfRange(picked.value[k]))
    && (|available| > 0 && picked.Some? ==>
          forall k ::
            (0 <= k < |picked.value| && !(0 <= picked.value[k] < |available|)
             && forall m :: 0 <= m < k ==> 0 <= picked.value[m] < |available|) ==>
              selection == Err(SelectionOutOfRange(picked.value[k])))
    && (selection.Err? ==> results == [] && after == before)
    && (selection.Ok? ==>
          |results| == |selection.value|
          && (after, results) == ConnectAll(before, m.hosts, m.binaryPath, name, selection.value)
          && Tried(selection.value, results, after, name, m.binaryPath)
          && (forall k :: k in before && k !in selection.value ==> k in after && after[k] == before[k]))
  }

  /** The host prompt of `install` (see `HostsConfigured`). */
  method ConfigureHosts(manager: Manager, name: string, picked: Option<seq<int>>)
    returns (available: seq<string>, selection: Result<seq<string>>, results: seq<Status>)
    requires manager.Valid()
    modifies manager
    ensures manager.Valid()
    ensures HostsConfigured(manager, old(manager.files), manager.files, name, picked, available, selection, results)
  {
    results := [];
    selection := Ok([]);
    available := manager.List();
    if |available| > 0 {
      var defaults := map h | h in available :: true;
      var shownDefaults;
      selection, shownDefaults := MultiSelect(available, defaults, picked);
      if selection.Err? {
        return;
      }
      results := ConnectSelected(manager, selection.value, name);
    }
  }

  /** The steps before any prompt (see `Prepared`): the definition and a
      fresh state object holding the loaded record with the new image tag.
      Opening the store creates its directory; no file changes. */
  method Prepare(args: seq<string>, repo: Repository, storeOk: bool, store: Store, built: Result<string>)
    returns (r: Result<(MCPConfig, MCPServer)>)
    requires store.Valid()
    modifies store
    ensures store.Valid() && store.files == old(store.files)
    ensures Prepared(args, repo, storeOk, store.files, built).Err? ==>
      r == Err(Prepared(args, repo, storeOk, store.files, built).error)
    ensures Prepared(args, repo, storeOk, store.files, built).Ok? ==>
      store.dirExists
      && r.Ok? && fresh(r.value.1) && r.value.0 == Prepared(args, repo, storeOk, store.files, built).value.0
      && r.value.1.Snapshot() == Prepared(args, repo, storeOk, store.files, built).value.1
  {
    if |args| < 1 {
      return Err(MissingArgument);
    }
    var name := args[0];
    var config := repo.MCPConfig(name);
    if config.Err? {
      return Err(config.error);
    }
    var openSt := store.Open(storeOk);
    if openSt.Failure? {
      return Err(openSt.error);
    }
    if built.Err? {
      return Err(built.error);
    }
    var loaded := store.Load(name);
    if loaded.Err? {
      return Err(loaded.error);
    }
    var s := loaded.value;
    s.SetLocalImageTag(built.value);
    r := Ok((config.value, s));
  }
}

=== FILE: keychain.dfy ===
/** The secure secret store, seen only through its contract: generic-password
    items of one service, keyed by account. `items` maps each account to its
    secret; `writable` says whether the store accepts new or updated items. */
module Keystore {
  import opened Errors

  class KeyChain {
    var items: map<string, string>
    const writable: bool

    constructor (items0: map<string, string>, writable0: bool)
      ensures items == items0 && writable == writable0
    {
      items := items0;
      writable := writable0;
    }

    /** Adds the item, or updates it when the account already has one, so
        storing twice under one account keeps a single item. */
    method Store(account: string, secret: string) returns (st: Status)
      modifies this
      ensures writable ==> st == Success && items == old(items)[account := secret]
      ensures !writable ==> st == Failure(SecretStoreFailed(account)) && items == old(items)
    {
      if !writable {
        return Failure(SecretStoreFailed(account));
      }
      items := items[account := secret];
      st := Success;
    }

    /** The secret stored for `account`; an absent item is an error. */
    function Retrieve(account: string): (r: Result<string>)
      reads this
      ensures r.Ok? <==> account in items
      ensures r.Ok? ==> r.value == items[account]
      ensures r.Err? ==> r.error == KeyNotFound(account)
    {
      if account in items then Ok(items[account]) else Err(KeyNotFound(account))
    }
  }
}

=== FILE: manager.dfy ===
/** The host registry: a fixed map from host identifier to connector, and the
    path of this binary that connected hosts are told to launch. */
module HostManager {
  import opened Errors
  import opened Collections
  import opened HostConnectors

  class Manager {
    const binaryPath: string
    const hosts: map<string, HostConnector>
    /** The content of every host's config file, by host identifier: the part
        of the file system the connectors read and rewrite. */
    var files: map<string, ConfigFile>

    constructor (binaryPath0: string, hosts0: map<string, HostConnector>, files0: map<string, ConfigFile>)
      requires files0.Keys == hosts0.Keys
      ensures Valid()
      ensures binaryPath == binaryPath0 && hosts == hosts0 && files == files0
    {
      binaryPath := binaryPath0;
      hosts := hosts0;
      files := files0;
    }

    /** Every host has its config file (possibly `Missing`). */
    ghost predicate Valid()
      reads this
    {
      files.Keys == hosts.Keys
    }

    ghost function AvailableKeys(): set<string>
    {
      set k | k in hosts && hosts[k].Available()
    }

    /** The names of the available hosts, one per available connector, in an
        order the model leaves open (Go map iteration). Never fails. */
    method List() returns (names: seq<string>)
      ensures |names| == |AvailableKeys()|
      ensures forall n :: n in names <==> exists k :: k in AvailableKeys() && hosts[k].Name() == n
    {
      names := [];
      ghost var listed: seq<string> := [];
      var pending := hosts.Keys;
      while pending != {}
        invariant pending <= hosts.Keys
        invariant |names| == |listed|
        invariant forall i :: 0 <= i < |listed| ==>
          listed[i] in AvailableKeys() && listed[i] !in pending && names[i] == hosts[listed[i]].Name()
        invariant forall i, j :: 0 <= i < j < |listed| ==> listed[i] != listed[j]
        invariant forall k :: k in AvailableKeys() && k !in pending ==> k in listed
        decreases pending
      {
        var k :| k in pending;
        pending := pending - {k};
        if hosts[k].Available() {
          names := names + [hosts[k].Name()];
          listed := listed + [k];
        }
      }
      DistinctCount(listed, AvailableKeys());
      forall n | exists k :: k in AvailableKeys() && hosts[k].Name() == n
        ensures n in names
      {
        var k :| k in AvailableKeys() && hosts[k].Name() == n;
        var i :| 0 <= i < |listed| && listed[i] == k;
        assert names[i] == n;
      }
    }

    /** Connects `server` in the named host, launched through this binary;
        only that host's config file can change. */
    method Connect(host: string, server: string) returns (st: Status)
      requires Valid()
      modifies this
      ensures Valid()
      ensures host in hosts ==>
        var (after, result) := ConnectFile(old(files)[host], hosts[host].writable, hosts[host].home, binaryPath, server);
        files == old(files)[host := after] && st == result
      ensures host !in hosts ==> files == old(files) && st == Failure(HostNotFound(host))
    {
      if host in hosts {
        var after;
        after, st := hosts[host].Connect(files[host], binaryPath, server);
        files := files[host := after];
        return;
      }
      st := Failure(HostNotFound(host));
    }

    /** Disconnects `server` from the named host, returning that host's own
        answer; an unknown host reports (false, not found). Only that host's
        config file can change. */
    method Disconnect(host: string, server: string) returns (wasPresent: bool, st: Status)
      requires Valid()
      modifies this
      ensures Valid()
      ensures host in hosts ==>
        var (after, present, result) := DisconnectFile(old(files)[host], hosts[host].writable, server);
        files == old(files)[host := after] && wasPresent == present && st == result
      ensures host !in hosts ==> files == old(files) && !wasPresent && st == Failure(HostNotFound(host))
    {
      if host in hosts {
        var after;
        after, wasPresent, st := hosts[host].Disconnect(files[host], server);
        files := files[host := after];
        return;
      }
      wasPresent, st := false, Failure(HostNotFound(host));
    }
  }
}

=== FILE: prompt.dfy ===
/** Collecting an MCP's environment variables from the user, and the host
    multi-select. The terminal widgets are not modelled: the user's answers are
    given in the order the questions are asked, `None` standing for a prompt
    that failed (including input that ran out). */
module Prompt {
  import opened Errors
  import opened Config
  import opened State
  import opened Keystore

  /** The keychain account a secret of definition `cfgName` is stored under. */
  function AccountKey(cfgName: string, varName: string): string
  {
    cfgName + "_" + varName
  }

  /** Within one definition, distinct variables have distinct accounts. */
  lemma AccountKeyInjective(cfgName: string, a: string, b: string)
    requires AccountKey(cfgName, a) == AccountKey(cfgName, b)
    ensures a == b
  {
    assert a == AccountKey(cfgName, a)[|cfgName| + 1..];
    assert b == AccountKey(cfgName, b)[|cfgName| + 1..];
  }

  /** Whether secrets go to the keychain: asked only on macOS and only when
      the definition declares a secret; a failed question is an error. */
  function KeychainChoice(goos: string, vars: seq<EnvironmentVariable>, confirm: Option<bool>): (r: Result<bool>)
    ensures r == Ok(true) ==> goos == "darwin" && exists i :: 0 <= i < |vars| && IsSecret(vars[i])
    ensures r.Err? ==> r.error == PromptFailed && confirm.None?
    ensures goos == "darwin" && (exists i :: 0 <= i < |vars| && IsSecret(vars[i])) ==>
      r == (if confirm.None? then Err(PromptFailed) else Ok(confirm.value))
    ensures !(goos == "darwin" && exists i :: 0 <= i < |vars| && IsSecret(vars[i])) ==> r == Ok(false)
  {
    if goos == "darwin" && (exists i :: 0 <= i < |vars| && IsSecret(vars[i])) then
      if confirm.None? then Err(PromptFailed) else Ok(confirm.value)
    else Ok(false)
  }

  /** What the variable loop has done so far: the state's two maps, the
      keychain's items, how many answers it has used, and whether a prompt
      failed (after which nothing more happens). */
  datatype Progress = Progress(
    env: map<string, string>,
    refs: map<string, string>,
    secrets: map<string, string>,
    used: nat,
    failed: bool)

  /** One declared variable: skipped when already set, otherwise asked for;
      a secret goes to the keychain (when chosen) and only its account key is
      recorded, anything else is set as a plain variable. A keychain store
      that fails is ignored. */
  function Step(p: Progress, cfgName: string, v: EnvironmentVariable, useKeychain: bool,
                keychainWritable: bool, answers: seq<Option<string>>): Progress
  {
    if p.failed || v.name in p.env then p
    else if p.used >= |answers| || answers[p.used].None? then p.(failed := true)
    else
      var value := answers[p.used].value;
      if IsSecret(v) && useKeychain then
        var key := AccountKey(cfgName, v.name);
        p.(refs := p.refs[key := v.name],
           secrets := if keychainWritable then p.secrets[key := value] else p.secrets,
           used := p.used + 1)
      else
        p.(env := p.env[v.name := value], used := p.used + 1)
  }

  /** The variable loop over `vars`, in declaration order. */
  function Collect(p: Progress, cfgName: string, vars: seq<EnvironmentVariable>, useKeychain: bool,
                   keychainWritable: bool, answers: seq<Option<string>>): Progress
  {
    if vars == [] then p
    else Step(Collect(p, cfgName, vars[..|vars| - 1], useKeychain, keychainWritable, answers),
              cfgName, vars[|vars| - 1], useKeychain, keychainWritable, answers)
  }

  /** A variable that was already set keeps its value: it is neither asked
      for nor overwritten. */
  lemma {:induction false} CollectKeepsSetVariables(p: Progress, cfgName: string, vars: seq<EnvironmentVariable>,
                                                    useKeychain: bool, keychainWritable: bool,
                                                    answers: seq<Option<string>>, k: string)
    requires k in p.env
    ensures var q := Collect(p, cfgName, vars, useKeychain, keychainWritable, answers);
      k in q.env && q.env[k] == p.env[k]
    decreases |vars|
  {
    if vars != [] {
      CollectKeepsSetVariables(p, cfgName, vars[..|vars| - 1], useKeychain, keychainWritable, answers, k);
    }
  }

  /** Only declared variables are added, and only account keys of declared
      secrets become keychain references. */
  lemma {:induction false} CollectOnlyDeclared(p: Progress, cfgName: string, vars: seq<EnvironmentVariable>,
                                               useKeychain: bool, keychainWritable: bool,
                                               answers: seq<Option<string>>)
    ensures var q := Collect(p, cfgName, vars, useKeychain, keychainWritable, answers);
      (forall k :: k in q.env ==> k in p.env || exists i :: 0 <= i < |vars| && vars[i].name == k) &&
      (forall a :: a in q.refs ==>
        a in p.refs || exists i :: 0 <= i < |vars| && IsSecret(vars[i]) && a == AccountKey(cfgName, vars[i].name))
    decreases |vars|
  {
    if vars != [] {
      var prefix := vars[..|vars| - 1];
      CollectOnlyDeclared(p, cfgName, prefix, useKeychain, keychainWritable, answers);
      var q := Collect(p, cfgName, vars, useKeychain, keychainWritable, answers);
      var qp := Collect(p, cfgName, prefix, useKeychain, keychainWritable, answers);
      forall k | k in q.env
        ensures k in p.env || exists i :: 0 <= i < |vars| && vars[i].name == k
      {
        if k in qp.env && k !in p.env {
          var i :| 0 <= i < |prefix| && prefix[i].name == k;
          assert vars[i].name == k;
        }
      }
      forall a | a in q.refs
        ensures a in p.refs || exists i :: 0 <= i < |vars| && IsSecret(vars[i]) && a == AccountKey(cfgName, vars[i].name)
      {
        if a in qp.refs && a !in p.refs {
          var i :| 0 <= i < |prefix| && IsSecret(prefix[i]) && a == AccountKey(cfgName, prefix[i].name);
          assert vars[i] == prefix[i];
        }
      }
    }
  }

  /** Without the keychain nothing is routed there: the reference table and
      the keychain stay as they were. */
  lemma {:induction false} CollectWithoutKeychain(p: Progress, cfgName: string, vars: seq<EnvironmentVariable>,
                                                  keychainWritable: bool, answers: seq<Option<string>>)
    ensures var q := Collect(p, cfgName, vars, false, keychainWritable, answers);
      q.refs == p.refs && q.secrets == p.secrets
    decreases |vars|
  {
    if vars != [] {
      CollectWithoutKeychain(p, cfgName, vars[..|vars| - 1], keychainWritable, answers);
    }
  }

  /** Variable `v` is taken care of in `p`: set, or, for a keychain secret,
      referenced under its account key. */
  predicate Covered(p: Progress, cfgName: string, v: EnvironmentVariable, useKeychain: bool)
  {
    v.name in p.env
    || (IsSecret(v) && useKeychain && AccountKey(cfgName, v.name) in p.refs
        && p.refs[AccountKey(cfgName, v.name)] == v.name)
  }

  /** A step that does not fail covers its own variable and keeps every
      variable covered before it covered. */
  lemma StepCovers(p: Progress, cfgName: string, v: EnvironmentVariable, useKeychain: bool,
                   keychainWritable: bool, answers: seq<Option<string>>, w: EnvironmentVariable)
    requires !Step(p, cfgName, v, useKeychain, keychainWritable, answers).failed
    ensures Covered(Step(p, cfgName, v, useKeychain, keychainWritable, answers), cfgName, v, useKeychain)
    ensures Covered(p, cfgName, w, useKeychain) ==>
      Covered(Step(p, cfgName, v, useKeychain, keychainWritable, answers), cfgName, w, useKeychain)
  {
    var key := AccountKey(cfgName, w.name);
    if Covered(p, cfgName, w, useKeychain) && w.name !in p.env && IsSecret(v) && useKeychain
       && AccountKey(cfgName, v.name) == key {
      AccountKeyInjective(cfgName, v.name, w.name);
    }
  }

  /** When every prompt succeeds, every declared variable ends up either set
      or, for a keychain secret, referenced under its account key. */
  lemma {:induction false} CollectCoversDeclared(p: Progress, cfgName: string, vars: seq<EnvironmentVariable>,
                                                 useKeychain: bool, keychainWritable: bool,
                                                 answers: seq<Option<string>>, j: nat)
    requires !Collect(p, cfgName, vars, useKeychain, keychainWritable, answers).failed
    requires j < |vars|
    ensures Covered(Collect(p, cfgName, vars, useKeychain, keychainWritable, answers), cfgName, vars[j], useKeychain)
    decreases |vars|
  {
    var n := |vars| - 1;
    var prefix := vars[..n];
    var qp := Collect(p, cfgName, prefix, useKeychain, keychainWritable, answers);
    StepCovers(qp, cfgName, vars[n], useKeychain, keychainWritable, answers, vars[j]);
    if j < n {
      assert prefix[j] == vars[j];
      CollectCoversDeclared(p, cfgName, prefix, useKeychain, keychainWritable, answers, j);
    }
  }

  /** Once a prompt has failed the loop does nothing more, so the updates
      made before the failure are what remains. */
  lemma {:induction false} CollectAfterFailure(p: Progress, cfgName: string, vars: seq<EnvironmentVariable>,
                                               useKeychain: bool, keychainWritable: bool,
                                               answers: seq<Option<string>>)
    requires p.failed
    ensures Collect(p, cfgName, vars, useKeychain, keychainWritable, answers) == p
    decreases |vars|
  {
    if vars != [] {
      CollectAfterFailure(p, cfgName, vars[..|vars| - 1], useKeychain, keychainWritable, answers);
    }
  }

  /** The outcome of the loop over the first `j` variables. */
  function CollectPrefix(p: Progress, cfgName: string, vars: seq<EnvironmentVariable>, useKeychain: bool,
                         keychainWritable: bool, answers: seq<Option<string>>, j: nat): Progress
    requires j <= |vars|
  {
    Collect(p, cfgName, vars[..j], useKeychain, keychainWritable, answers)
  }

  /** A variable that is already set when its turn comes is skipped: no
      answer is used for it and nothing changes. */
  lemma CollectSkipsSet(p: Progress, cfgName: string, vars: seq<EnvironmentVariable>, useKeychain: bool,
                        keychainWritable: bool, answers: seq<Option<string>>, j: nat)
    requires j < |vars|
    requires vars[j].name in CollectPrefix(p, cfgName, vars, useKeychain, keychainWritable, answers, j).env
    ensures CollectPrefix(p, cfgName, vars, useKeychain, keychainWritable, answers, j + 1)
      == CollectPrefix(p, cfgName, vars, useKeychain, keychainWritable, answers, j)
  {
    CollectSnoc(p, cfgName, vars, j, useKeychain, keychainWritable, answers);
  }

  /** A prompted variable that is not a keychain secret is set to its own
      answer (the next one unused when its turn comes), and keeps it to the
      end of the loop. */
  lemma CollectPlainGetsAnswer(p: Progress, cfgName: string, vars: seq<EnvironmentVariable>, useKeychain: bool,
                               keychainWritable: bool, answers: seq<Option<string>>, j: nat)
    requires j < |vars| && !(IsSecret(vars[j]) && useKeychain)
    requires var pre := CollectPrefix(p, cfgName, vars, useKeychain, keychainWritable, answers, j);
      !pre.failed && vars[j].name !in pre.env && pre.used < |answers| && answers[pre.used].Some?
    ensures var pre := CollectPrefix(p, cfgName, vars, useKeychain, keychainWritable, answers, j);
      var q := Collect(p, cfgName, vars, useKeychain, keychainWritable, answers);
      vars[j].name in q.env && q.env[vars[j].name] == answers[pre.used].value
  {
    var mid := CollectPrefix(p, cfgName, vars, useKeychain, keychainWritable, answers, j + 1);
    CollectSnoc(p, cfgName, vars, j, useKeychain, keychainWritable, answers);
    CollectSplit(p, cfgName, vars, j + 1, useKeychain, keychainWritable, answers);
    CollectKeepsSetVariables(mid, cfgName, vars[j + 1..], useKeychain, keychainWritable, answers, vars[j].name);
  }

  /** The loop leaves the keychain reference and item of a name it never
      meets as they were. */
  lemma {:induction false} CollectKeepsAccount(p: Progress, cfgName: string, vars: seq<EnvironmentVariable>,
                                               useKeychain: bool, keychainWritable: bool,
                                               answers: seq<Option<string>>, n: string)
    requires forall i :: 0 <= i < |vars| ==> vars[i].name != n
    ensures var q := Collect(p, cfgName, vars, useKeychain, keychainWritable, answers);
      var key := AccountKey(cfgName, n);
      (key in q.refs <==> key in p.refs) && (key in p.refs ==> q.refs[key] == p.refs[key])
      && (key in q.secrets <==> key in p.secrets) && (key in p.secrets ==> q.secrets[key] == p.secrets[key])
    decreases |vars|
  {
    if vars != [] {
      var last := vars[|vars| - 1];
      CollectKeepsAccount(p, cfgName, vars[..|vars| - 1], useKeychain, keychainWritable, answers, n);
      if AccountKey(cfgName, last.name) == AccountKey(cfgName, n) {
        AccountKeyInjective(cfgName, last.name, n);
      }
    }
  }

  /** A prompted secret, with the keychain chosen, goes to the keychain and
      not into the environment: its account key references it, the keychain
      holds its answer when it accepts the item, and a keychain that refuses
      the item does not stop the loop. The variable is taken to be declared
      once after this point. */
  lemma CollectSecretToKeychain(p: Progress, cfgName: string, vars: seq<EnvironmentVariable>, useKeychain: bool,
                                keychainWritable: bool, answers: seq<Option<string>>, j: nat)
    requires j < |vars| && IsSecret(vars[j]) && useKeychain
    requires forall i :: j < i < |vars| ==> vars[i].name != vars[j].name
    requires var pre := CollectPrefix(p, cfgName, vars, useKeychain, keychainWritable, answers, j);
      !pre.failed && vars[j].name !in pre.env && pre.used < |answers| && answers[pre.used].Some?
    ensures !CollectPrefix(p, cfgName, vars, useKeychain, keychainWritable, answers, j + 1).failed
    ensures var pre := CollectPrefix(p, cfgName, vars, useKeychain, keychainWritable, answers, j);
      var q := Collect(p, cfgName, vars, useKeychain, keychainWritable, answers);
      var key := AccountKey(cfgName, vars[j].name);
      key in q.refs && q.refs[key] == vars[j].name
      && vars[j].name !in q.env
      && (keychainWritable ==> key in q.secrets && q.secrets[key] == answers[pre.used].value)
  {
    var n := vars[j].name;
    var mid := CollectPrefix(p, cfgName, vars, useKeychain, keychainWritable, answers, j + 1);
    var rest := vars[j + 1..];
    CollectSnoc(p, cfgName, vars, j, useKeychain, keychainWritable, answers);
    CollectSplit(p, cfgName, vars, j + 1, useKeychain, keychainWritable, answers);
    assert forall i :: 0 <= i < |rest| ==> rest[i] == vars[j + 1 + i];
    CollectKeepsAccount(mid, cfgName, rest, useKeychain, keychainWritable, answers, n);
    CollectOnlyDeclared(mid, cfgName, rest, useKeychain, keychainWritable, answers);
  }

  /** A keychain that refuses every item changes nothing else: the loop sets
      the same variables, records the same references, uses the same answers
      and fails or not exactly as with a working keychain, and the keychain
      stays as it was. */
  lemma {:induction false} CollectIgnoresKeychainFailure(p: Progress, cfgName: string,
                                                         vars: seq<EnvironmentVariable>, useKeychain: bool,
                                                         answers: seq<Option<string>>)
    ensures Collect(p, cfgName, vars, useKeychain, false, answers)
      == Collect(p, cfgName, vars, useKeychain, true, answers).(secrets := p.secrets)
    decreases |vars|
  {
    if vars != [] {
      CollectIgnoresKeychainFailure(p, cfgName, vars[..|vars| - 1], useKeychain, answers);
    }
  }

  /** `PromptEnvironmentVariables`: asks for every declared variable not yet
      set and records the answers in the state (and secrets in the keychain). */
  method PromptEnvironmentVariables(cfg: MCPConfig, st: MCPServer, kc: KeyChain, goos: string,
                                    confirm: Option<bool>, answers: seq<Option<string>>)
    returns (status: Status)
    modifies st, kc
    ensures st.name == old(st.name) && st.localImageTag == old(st.localImageTag)
    ensures st.configuredHosts == old(st.configuredHosts)
    ensures KeychainChoice(goos, cfg.environmentVars, confirm).Err? ==>
      status == Failure(PromptFailed) && st.Snapshot() == old(st.Snapshot()) && kc.items == old(kc.items)
    ensures KeychainChoice(goos, cfg.environmentVars, confirm).Ok? ==>
      var q := Collect(Progress(old(st.environmentVariables), old(st.keyChainEnvVars), old(kc.items), 0, false),
                       cfg.name, cfg.environmentVars, KeychainChoice(goos, cfg.environmentVars, confirm).value,
                       kc.writable, answers);
      st.environmentVariables == q.env && st.keyChainEnvVars == q.refs && kc.items == q.secrets
      && (status == Success <==> !q.failed)
      && (status.Failure? ==> status.error == PromptFailed)
  {
    var vars := cfg.environmentVars;
    var hasSecrets := HasSecrets(vars);
    var useKeychain := false;
    if goos == "darwin" && hasSecrets {
      if confirm.None? {
        return Failure(PromptFailed);
      }
      useKeychain := confirm.value;
    }
    assert KeychainChoice(goos, vars, confirm) == Ok(useKeychain);

    ghost var start := Progress(st.environmentVariables, st.keyChainEnvVars, kc.items, 0, false);
    var used := 0;
    for n := 0 to |vars|
      invariant Collect(start, cfg.name, vars[..n], useKeychain, kc.writable, answers)
        == Progress(st.environmentVariables, st.keyChainEnvVars, kc.items, used, false)
      invariant st.name == old(st.name) && st.localImageTag == old(st.localImageTag)
      invariant st.configuredHosts == old(st.configuredHosts)
    {
      CollectSnoc(start, cfg.name, vars, n, useKeychain, kc.writable, answers);
      var answered;
      used, answered := AskVariable(cfg.name, vars[n], st, kc, useKeychain, answers, used);
      if !answered {
        CollectStaysFailed(start, cfg.name, vars, n + 1, useKeychain, kc.writable, answers);
        return Failure(PromptFailed);
      }
    }
    assert vars[..|vars|] == vars;
    status := Success;
  }

  /** Whether any declared variable is a secret. */
  method HasSecrets(vars: seq<EnvironmentVariable>) returns (found: bool)
    ensures found <==> exists j :: 0 <= j < |vars| && IsSecret(vars[j])
  {
    found := false;
    var i := 0;
    while i < |vars| && !found
      invariant 0 <= i <= |vars|
      invariant found <==> exists j :: 0 <= j < i && IsSecret(vars[j])
    {
      if vars[i].kind == "secret" {
        found := true;
      }
      i := i + 1;
    }
  }

  /** One iteration of the variable loop (see `Step`): `used` answers were
      consumed before it; `answered` is false when the prompt failed, in
      which case nothing changes. */
  method AskVariable(cfgName: string, v: EnvironmentVariable, st: MCPServer, kc: KeyChain, useKeychain: bool,
                     answers: seq<Option<string>>, used: nat)
    returns (usedAfter: nat, answered: bool)
    modifies st, kc
    ensures Step(Progress(old(st.environmentVariables), old(st.keyChainEnvVars), old(kc.items), used, false),
                 cfgName, v, useKeychain, kc.writable, answers)
      == Progress(st.environmentVariables, st.keyChainEnvVars, kc.items, usedAfter, !answered)
    ensures st.name == old(st.name) && st.localImageTag == old(st.localImageTag)
    ensures st.configuredHosts == old(st.configuredHosts)
  {
    usedAfter, answered := used, true;
    var (_, exists_) := st.GetEnvironmentVariable(v.name);
    if exists_ {
      return;
    }
    if used >= |answers| || answers[used].None? {
      return used, false;
    }
    var value := answers[used].value;
    usedAfter := used + 1;
    if v.kind == "secret" && useKeychain {
      var account := AccountKey(cfgName, v.name);
      var _ := kc.Store(account, value);
      st.keyChainEnvVars := st.keyChainEnvVars[account := v.name];
    } else {
      st.SetEnvironmentVariable(v.name, value);
    }
  }

  /** One more variable is one more `Step`. */
  lemma CollectSnoc(p: Progress, cfgName: string, vars: seq<EnvironmentVariable>, n: nat,
                    useKeychain: bool, keychainWritable: bool, answers: seq<Option<string>>)
    requires n < |vars|
    ensures Collect(p, cfgName, vars[..n + 1], useKeychain, keychainWritable, answers)
      == Step(Collect(p, cfgName, vars[..n], useKeychain, keychainWritable, answers),
              cfgName, vars[n], useKeychain, keychainWritable, answers)
  {
    assert vars[..n + 1][..n] == vars[..n];
  }

  /** Once the loop has failed on a prefix, the whole loop ends in that
      state. */
  lemma CollectStaysFailed(p: Progress, cfgName: string, vars: seq<EnvironmentVariable>, n: nat,
                           useKeychain: bool, keychainWritable: bool, answers: seq<Option<string>>)
    requires n <= |vars| && Collect(p, cfgName, vars[..n], useKeychain, keychainWritable, answers).failed
    ensures Collect(p, cfgName, vars, useKeychain, keychainWritable, answers)
      == Collect(p, cfgName, vars[..n], useKeychain, keychainWritable, answers)
  {
    CollectAfterFailure(Collect(p, cfgName, vars[..n], useKeychain, keychainWritable, answers),
                        cfgName, vars[n..], useKeychain, keychainWritable, answers);
    CollectSplit(p, cfgName, vars, n, useKeychain, keychainWritable, answers);
  }

  /** The loop over a whole list is the loop over its first `n` elements
      continued with the rest. */
  lemma {:induction false} CollectSplit(p: Progress, cfgName: string, vars: seq<EnvironmentVariable>, n: nat,
                                        useKeychain: bool, keychainWritable: bool, answers: seq<Option<string>>)
    requires n <= |vars|
    ensures Collect(p, cfgName, vars, useKeychain, keychainWritable, answers)
      == Collect(Collect(p, cfgName, vars[..n], useKeychain, keychainWritable, answers),
                 cfgName, vars[n..], useKeychain, keychainWritable, answers)
    decreases |vars|
  {
    if n == |vars| {
      assert vars[..n] == vars;
      assert vars[n..] == [];
    } else {
      var prefix := vars[..|vars| - 1];
      CollectSplit(p, cfgName, prefix, n, useKeychain, keychainWritable, answers);
      assert prefix[..n] == vars[..n];
      assert vars[n..][..|vars[n..]| - 1] == prefix[n..];
      assert vars[n..][|vars[n..]| - 1] == vars[|vars| - 1];
    }
  }

  /** The default selection of a multi-select: the positions whose option is
      marked true, in ascending order (an unmarked option counts as false). */
  method DefaultIndices(options: seq<string>, defaults: map<string, bool>) returns (indices: seq<nat>)
    ensures forall a, b :: 0 <= a < b < |indices| ==> indices[a] < indices[b]
    ensures forall k :: 0 <= k < |indices| ==> indices[k] < |options|
    ensures forall i :: 0 <= i < |options| ==>
      (i in indices <==> options[i] in defaults && defaults[options[i]])
  {
    indices := [];
    for i := 0 to |options|
      invariant forall a, b :: 0 <= a < b < |indices| ==> indices[a] < indices[b]
      invariant forall k :: 0 <= k < |indices| ==> indices[k] < i
      invariant forall j :: 0 <= j < i ==> (j in indices <==> options[j] in defaults && defaults[options[j]])
    {
      if options[i] in defaults && defaults[options[i]] {
        indices := indices + [i];
      }
    }
  }

  /** `MultiSelect`: the options at the positions the user picked, in the
      order picked. `picked` is the widget's answer (None when it failed); a
      position outside the options stops with an error, as indexing out of
      range stops the program. `defaultIndices` is the pre-selection shown. */
  method MultiSelect(options: seq<string>, defaults: map<string, bool>, picked: Option<seq<int>>)
    returns (r: Result<seq<string>>, defaultIndices: seq<nat>)
    ensures forall i :: 0 <= i < |options| ==>
      (i in defaultIndices <==> options[i] in defaults && defaults[options[i]])
    ensures picked.None? ==> r == Err(PromptFailed)
    ensures picked.Some? && (forall k :: 0 <= k < |picked.value| ==> 0 <= picked.value[k] < |options|) ==>
      r.Ok? && |r.value| == |picked.value|
      && forall k :: 0 <= k < |picked.value| ==> r.value[k] == options[picked.value[k]]
    ensures picked.Some? && r.Err? ==>
      exists k :: 0 <= k < |picked.value| && !(0 <= picked.value[k] < |options|)
        && r.error == SelectionOutOfRange(picked.value[k])
    ensures picked.Some? ==> forall k ::
      (0 <= k < |picked.value| && !(0 <= picked.value[k] < |options|)
       && forall m :: 0 <= m < k ==> 0 <= picked.value[m] < |options|) ==>
        r == Err(SelectionOutOfRange(picked.value[k]))
  {
    defaultIndices := DefaultIndices(options, defaults);
    if picked.None? {
      return Err(PromptFailed), defaultIndices;
    }
    var chosen := picked.value;
    var selected := [];
    for k := 0 to |chosen|
      invariant |selected| == k
      invariant forall m :: 0 <= m < k ==> 0 <= chosen[m] < |options| && selected[m] == options[chosen[m]]
    {
      var idx := chosen[k];
      if !(0 <= idx < |options|) {
        return Err(SelectionOutOfRange(idx)), defaultIndices;
      }
      selected := selected + [options[idx]];
    }
    r := Ok(selected);
  }
}

=== FILE: run.dfy ===
/** `smp run <name>`: starts an installed MCP's container with the variables
    its definition declares, secrets resolved from the keychain. Writing to the
    terminal is not modelled; the container's command line and the environment
    it was built from are returned. */
module RunCommand {
  import opened Errors
  import opened Config
  import opened State
  import opened Keystore
  import opened Definitions
  import opened Docker

  /** The variables the keychain references of `accounts` resolve into. */
  ghost function Targets(refs: map<string, string>, accounts: set<string>): set<string>
  {
    set a | a in accounts && a in refs :: refs[a]
  }

  /** `env` is the saved environment `env0` with every keychain reference in
      `refs` resolved through `items`: each referenced variable holds the
      secret of one account that names it (which one, when several do, follows
      the unordered walk over `refs`), and every other variable keeps its
      saved value. */
  ghost predicate Resolved(env0: map<string, string>, refs: map<string, string>,
                           items: map<string, string>, env: map<string, string>)
  {
    && env.Keys == env0.Keys + refs.Values
    && (forall k :: k in env0 && k !in refs.Values ==> env[k] == env0[k])
    && (forall k :: k in refs.Values ==>
          exists a :: a in refs && refs[a] == k && a in items && env[k] == items[a])
  }

  /** `Resolved` for the references of the accounts in `done` only: the
      state of the resolving loop once it has walked `done`. */
  ghost predicate PartlyResolved(env0: map<string, string>, refs: map<string, string>, items: map<string, string>,
                                 done: set<string>, env: map<string, string>)
  {
    && done <= refs.Keys
    && env.Keys == env0.Keys + Targets(refs, done)
    && (forall k :: k in env0 && k !in Targets(refs, done) ==> env[k] == env0[k])
    && (forall k :: k in Targets(refs, done) ==>
          exists a :: a in done && refs[a] == k && a in items && env[k] == items[a])
  }

  /** Resolving one more account writes its secret into the variable it
      names and keeps the rest of the partial resolution. */
  lemma PartlyResolvedStep(env0: map<string, string>, refs: map<string, string>, items: map<string, string>,
                           done: set<string>, env: map<string, string>, account: string)
    requires PartlyResolved(env0, refs, items, done, env)
    requires account in refs && account !in done && account in items
    ensures PartlyResolved(env0, refs, items, done + {account}, env[refs[account] := items[account]])
  {
    var done' := done + {account};
    var env' := env[refs[account] := items[account]];
    assert Targets(refs, done') == Targets(refs, done) + {refs[account]};
    forall k | k in Targets(refs, done')
      ensures exists a :: a in done' && refs[a] == k && a in items && env'[k] == items[a]
    {
      if k != refs[account] {
        var a :| a in done && refs[a] == k && a in items && env[k] == items[a];
        assert a in done' && env'[k] == items[a];
      } else {
        assert account in done' && env'[k] == items[account];
      }
    }
  }

  /** Once every account was walked the resolution is complete. */
  lemma PartlyResolvedAll(env0: map<string, string>, refs: map<string, string>, items: map<string, string>,
                          env: map<string, string>)
    requires PartlyResolved(env0, refs, items, refs.Keys, env)
    ensures Resolved(env0, refs, items, env)
  {
    assert Targets(refs, refs.Keys) == refs.Values;
  }

  /** When no two accounts reference the same variable the resolved
      environment is unique: each referenced variable holds its account's
      secret, whatever order the references were walked in. */
  lemma ResolvedUnique(env0: map<string, string>, refs: map<string, string>, items: map<string, string>,
                       env1: map<string, string>, env2: map<string, string>)
    requires forall a, b :: a in refs && b in refs && refs[a] == refs[b] ==> a == b
    requires Resolved(env0, refs, items, env1) && Resolved(env0, refs, items, env2)
    ensures env1 == env2
  {
    forall k | k in env1.Keys
      ensures env1[k] == env2[k]
    {
      if k in refs.Values {
        var a :| a in refs && refs[a] == k && a in items && env1[k] == items[a];
        var b :| b in refs && refs[b] == k && b in items && env2[k] == items[b];
        assert a == b;
      }
    }
  }

  /** The `run` action. `args` are the command's arguments, `storeOk` whether
      the home state store can be opened, `exitOk` whether the container exits
      cleanly. The store and the keychain are only read. */
  method Run(args: seq<string>, repo: Repository, storeOk: bool, store: Store, kc: KeyChain, exitOk: bool)
    returns (env: map<string, string>, launched: seq<string>, st: Status)
    ensures |args| == 0 ==> st == Failure(MissingArgument) && launched == []
    ensures |args| > 0 && repo.MCPConfig(args[0]).Err? ==>
      st == Failure(repo.MCPConfig(args[0]).error) && launched == []
    ensures |args| > 0 && repo.MCPConfig(args[0]).Ok? && !storeOk ==>
      st == Failure(StoreUnavailable) && launched == []
    ensures |args| > 0 && repo.MCPConfig(args[0]).Ok? && storeOk && LoadRecord(store.files, args[0]).Err? ==>
      st == Failure(LoadRecord(store.files, args[0]).error) && launched == []
    ensures |args| > 0 && repo.MCPConfig(args[0]).Ok? && storeOk && LoadRecord(store.files, args[0]).Ok? ==>
      var cfg := repo.MCPConfig(args[0]).value;
      var rec := LoadRecord(store.files, args[0]).value;
      (rec.keyChainEnvVars.Keys <= kc.items.Keys ==>
        Resolved(rec.environmentVariables, rec.keyChainEnvVars, kc.items, env)
        && launched == RunArgs(cfg.environmentVars, env, rec.localImageTag)
        && st == (if exitOk then Success else Failure(RunFailed)))
      && (!(rec.keyChainEnvVars.Keys <= kc.items.Keys) ==>
        launched == [] && exists a :: a in rec.keyChainEnvVars && a !in kc.items && st == Failure(KeyNotFound(a)))
  {
    env, launched := map[], [];
    if |args| < 1 {
      return env, launched, Failure(MissingArgument);
    }
    var name := args[0];
    var config := repo.MCPConfig(name);
    if config.Err? {
      return env, launched, Failure(config.error);
    }
    if !storeOk {
      return env, launched, Failure(StoreUnavailable);
    }
    var loaded := store.Load(name);
    if loaded.Err? {
      return env, launched, Failure(loaded.error);
    }
    var s := loaded.value;
    ghost var rec := s.Snapshot();
    var refs := s.keyChainEnvVars;
    var pending := refs.Keys;
    ghost var done: set<string> := {};
    assert Targets(refs, done) == {};
    while pending != {}
      invariant pending + done == refs.Keys && pending !! done
      invariant done <= kc.items.Keys
      invariant s.localImageTag == rec.localImageTag && s.keyChainEnvVars == refs
      invariant PartlyResolved(rec.environmentVariables, refs, kc.items, done, s.environmentVariables)
      decreases pending
    {
      var account :| account in pending;
      var secret := kc.Retrieve(account);
      if secret.Err? {
        return env, launched, Failure(secret.error);
      }
      PartlyResolvedStep(rec.environmentVariables, refs, kc.items, done, s.environmentVariables, account);
      s.SetEnvironmentVariable(refs[account], secret.value);
      pending := pending - {account};
      done := done + {account};
    }
    PartlyResolvedAll(rec.environmentVariables, refs, kc.items, s.environmentVariables);
    env := s.environmentVariables;
    var runner := new Runner(config.value, s);
    launched, st := runner.Run(exitOk);
  }
}

=== FILE: state.dfy ===
/** The per-MCP state record and the store that keeps one record per MCP name
    in a state directory, one `<name>.json` file each. The directory is the
    `files` map of a `Store` (file name to content); JSON encoding is exact, so
    a stored file holds the record itself, and a file that cannot be read or
    decoded is `Corrupt`. */
module State {
  import opened Errors
  import opened Strings
  import opened Collections

  /** The value a state file holds (the JSON form of `MCPServer`). */
  datatype Record = Record(
    name: string,
    localImageTag: string,
    environmentVariables: map<string, string>,
    keyChainEnvVars: map<string, string>,
    configuredHosts: seq<string>)

  datatype StateFile = Stored(record: Record) | Corrupt

  /** The record `Load` creates for a name that has no file yet. */
  function EmptyRecord(name: string): Record
  {
    Record(name, "", map[], map[], [])
  }

  /** Every record lives in the file named after it. The name is taken as a
      plain file name: the cleaning `filepath.Join` applies to the path
      (`.`, `..`, separators) is not modelled. */
  function FileName(name: string): string
  {
    name + ".json"
  }

  /** What `Store.Load` yields for `name` from the directory contents `files`:
      load-or-create, failing only on an unreadable file. */
  function LoadRecord(files: map<string, StateFile>, name: string): (r: Result<Record>)
    ensures r.Err? <==> FileName(name) in files && files[FileName(name)].Corrupt?
    ensures r.Err? ==> r.error == StateUnreadable(name)
    ensures FileName(name) !in files ==> r == Ok(EmptyRecord(name))
  {
    if FileName(name) !in files then Ok(EmptyRecord(name))
    else match files[FileName(name)]
      case Stored(rec) => Ok(rec)
      case Corrupt => Err(StateUnreadable(name))
  }

  /** Distinct names never share a state file name. */
  lemma FileNameInjective(a: string, b: string)
    requires a != b
    ensures FileName(a) != FileName(b)
  {
    if FileName(a) == FileName(b) {
      AppendCancel(a, b, ".json");
    }
  }

  /** Save then Load of the saved record's name gives the record back, and
      loading any other name sees what it saw before the save. */
  lemma SaveThenLoad(files: map<string, StateFile>, rec: Record, other: string)
    ensures LoadRecord(files[FileName(rec.name) := Stored(rec)], rec.name) == Ok(rec)
    ensures other != rec.name ==>
      LoadRecord(files[FileName(rec.name) := Stored(rec)], other) == LoadRecord(files, other)
  {
    if other != rec.name {
      FileNameInjective(other, rec.name);
    }
  }

  /** Saving what was just loaded changes nothing a later load can see. */
  lemma SaveLoadedIsNoOp(files: map<string, StateFile>, name: string, other: string)
    requires LoadRecord(files, name).Ok?
    ensures LoadRecord(files, name).value.name == name ==>
      LoadRecord(files[FileName(name) := Stored(LoadRecord(files, name).value)], other)
        == LoadRecord(files, other)
  {
    var rec := LoadRecord(files, name).value;
    if rec.name == name {
      SaveThenLoad(files, rec, other);
    }
  }

  /** After a delete, loading the name yields the fresh empty record again,
      and every other name is untouched. */
  lemma DeleteThenLoad(files: map<string, StateFile>, name: string, other: string)
    ensures LoadRecord(files - {FileName(name)}, name) == Ok(EmptyRecord(name))
    ensures other != name ==> LoadRecord(files - {FileName(name)}, other) == LoadRecord(files, other)
  {
    if other != name {
      FileNameInjective(other, name);
    }
  }

  /** The in-memory state of one MCP (`MCPServer`), updated in place by the
      commands and by the builder. A Go nil map is the empty map here. */
  class MCPServer {
    var name: string
    var localImageTag: string
    var environmentVariables: map<string, string>
    var keyChainEnvVars: map<string, string>
    var configuredHosts: seq<string>

    constructor (rec: Record)
      ensures Snapshot() == rec
    {
      name := rec.name;
      localImageTag := rec.localImageTag;
      environmentVariables := rec.environmentVariables;
      keyChainEnvVars := rec.keyChainEnvVars;
      configuredHosts := rec.configuredHosts;
    }

    /** The record this object would be saved as. */
    function Snapshot(): Record
      reads this
    {
      Record(name, localImageTag, environmentVariables, keyChainEnvVars, configuredHosts)
    }

    /** The value and presence flag of `key`; ("", false) when unset. */
    function GetEnvironmentVariable(key: string): (r: (string, bool))
      reads this
      ensures r.1 <==> key in environmentVariables
      ensures r.1 ==> r.0 == environmentVariables[key]
      ensures !r.1 ==> r.0 == ""
    {
      if key in environmentVariables then (environmentVariables[key], true) else ("", false)
    }

    method SetEnvironmentVariable(key: string, value: string)
      modifies this
      ensures environmentVariables == old(environmentVariables)[key := value]
      ensures GetEnvironmentVariable(key) == (value, true)
      ensures forall k :: k != key ==> GetEnvironmentVariable(k) == old(GetEnvironmentVariable(k))
      ensures name == old(name) && localImageTag == old(localImageTag)
      ensures keyChainEnvVars == old(keyChainEnvVars) && configuredHosts == old(configuredHosts)
    {
      environmentVariables := environmentVariables[key := value];
    }

    method SetLocalImageTag(tag: string)
      modifies this
      ensures Snapshot() == old(Snapshot()).(localImageTag := tag)
    {
      localImageTag := tag;
    }
  }

  /** The state directory. `files` maps each file name in it to its content;
      `dirExists` is whether it exists at all. `writable` and `removable` say
      whether the file system accepts writes and removals of state files. */
  class Store {
    var files: map<string, StateFile>
    var dirExists: bool
    const writable: bool
    const removable: bool

    /** A directory that does not exist holds no files. */
    ghost predicate Valid()
      reads this
    {
      !dirExists ==> files == map[]
    }

    constructor (files0: map<string, StateFile>, dirExists0: bool, writable0: bool, removable0: bool)
      requires !dirExists0 ==> files0 == map[]
      ensures Valid()
      ensures files == files0 && dirExists == dirExists0
      ensures writable == writable0 && removable == removable0
    {
      files := files0;
      dirExists := dirExists0;
      writable := writable0;
      removable := removable0;
    }

    /** `NewStore`: opening the store creates the state directory when it is
        missing (`mkdirOk` is whether that succeeds, and whether the home
        directory is known for the home store); the files already there are
        kept. */
    method Open(mkdirOk: bool) returns (st: Status)
      requires Valid()
      modifies this
      ensures Valid() && files == old(files)
      ensures mkdirOk ==> st == Success && dirExists
      ensures !mkdirOk ==> st == Failure(StoreUnavailable) && dirExists == old(dirExists)
    {
      if !mkdirOk {
        return Failure(StoreUnavailable);
      }
      dirExists := true;
      st := Success;
    }

    /** The state files `List` reads: those whose extension is ".json". */
    ghost function JsonFiles(): set<string>
      reads this
    {
      set f | f in files && Ext(f) == ".json"
    }

    /** Whole-record replace of the file named after `s.name`. */
    method Save(s: MCPServer) returns (st: Status)
      requires Valid()
      modifies this
      ensures Valid() && dirExists == old(dirExists)
      ensures writable && dirExists ==>
        st == Success && files == old(files)[FileName(s.name) := Stored(s.Snapshot())]
      ensures !(writable && dirExists) ==> st == Failure(StateWriteFailed(s.name)) && files == old(files)
    {
      if !writable || !dirExists {
        return Failure(StateWriteFailed(s.name));
      }
      files := files[FileName(s.name) := Stored(s.Snapshot())];
      st := Success;
    }

    /** Load-or-create: a fresh object holding the stored record, or the empty
        record for a name without a file. */
    method Load(name: string) returns (r: Result<MCPServer>)
      ensures r.Ok? <==> LoadRecord(files, name).Ok?
      ensures r.Err? ==> r.error == LoadRecord(files, name).error
      ensures r.Ok? ==> fresh(r.value) && r.value.Snapshot() == LoadRecord(files, name).value
    {
      var loaded := LoadRecord(files, name);
      if loaded.Err? {
        return Err(loaded.error);
      }
      var s := new MCPServer(loaded.value);
      r := Ok(s);
    }

    /** Removes the state file; a missing file is not an error. */
    method Delete(name: string) returns (st: Status)
      requires Valid()
      modifies this
      ensures Valid() && dirExists == old(dirExists)
      ensures FileName(name) !in old(files) ==> st == Success && files == old(files)
      ensures FileName(name) in old(files) && removable ==>
        st == Success && files == old(files) - {FileName(name)}
      ensures FileName(name) in old(files) && !removable ==>
        st == Failure(StateDeleteFailed(name)) && files == old(files)
    {
      if FileName(name) !in files {
        return Success;
      }
      if !removable {
        return Failure(StateDeleteFailed(name));
      }
      files := files - {FileName(name)};
      st := Success;
    }

    /** Loading the MCP a ".json" state file is named after reads that very
        file. */
    method LoadFile(f: string) returns (r: Result<MCPServer>)
      requires f in files && Ext(f) == ".json"
      ensures r.Ok? <==> files[f].Stored?
      ensures r.Ok? ==> fresh(r.value) && files[f] == Stored(r.value.Snapshot())
    {
      ExtJsonIffSuffix(f);
      var mcpName := f[..|f| - 5];
      assert FileName(mcpName) == f by {
        assert f == f[..|f| - 5] + f[|f| - 5..];
      }
      r := Load(mcpName);
    }

    /** One record per ".json" file (named after the file without ".json"),
        other files skipped; no directory gives an empty list, a directory
        that cannot be read (`readDirOk` false) is an error, and a single
        unreadable state file fails the whole listing. The order of the files
        is not modelled. */
    method List(readDirOk: bool) returns (r: Result<seq<MCPServer>>)
      requires Valid()
      ensures !dirExists ==> r == Ok([])
      ensures dirExists && !readDirOk ==> r == Err(StateDirUnreadable)
      ensures dirExists && readDirOk ==>
        (r.Ok? <==> forall f :: f in JsonFiles() ==> files[f].Stored?)
      ensures r.Ok? ==> |r.value| == |JsonFiles()|
      ensures r.Ok? ==> forall i :: 0 <= i < |r.value| ==> fresh(r.value[i])
      ensures r.Ok? ==> forall i :: 0 <= i < |r.value| ==>
        exists f :: f in JsonFiles() && files[f] == Stored(r.value[i].Snapshot())
      ensures r.Ok? ==> forall f :: f in JsonFiles() ==>
        exists i :: 0 <= i < |r.value| && files[f] == Stored(r.value[i].Snapshot())
    {
      if !dirExists {
        return Ok([]);
      }
      if !readDirOk {
        return Err(StateDirUnreadable);
      }
      ghost var json := JsonFiles();
      var pending := files.Keys;
      var states: seq<MCPServer> := [];
      ghost var listed: seq<string> := [];
      while pending != {}
        invariant pending <= files.Keys
        invariant |states| == |listed|
        invariant forall i :: 0 <= i < |listed| ==> listed[i] in json && listed[i] !in pending
        invariant forall i, j :: 0 <= i < j < |listed| ==> listed[i] != listed[j]
        invariant forall f :: f in json && f !in pending ==> f in listed
        invariant forall i :: 0 <= i < |states| ==> fresh(states[i])
        invariant forall i :: 0 <= i < |states| ==> files[listed[i]] == Stored(states[i].Snapshot())
        decreases pending
      {
        var f :| f in pending;
        pending := pending - {f};
        if Ext(f) != ".json" {
          continue;
        }
        var loaded := LoadFile(f);
        if loaded.Err? {
          assert f in json && !files[f].Stored?;
          return Err(loaded.error);
        }
        states := states + [loaded.value];
        listed := listed + [f];
      }
      assert forall f :: f in json <==> f in listed;
      DistinctCount(listed, json);
      r := Ok(states);
    }
  }
}

=== FILE: strings.dfy ===
/** The few operations of Go's `strings` and `path/filepath` packages that the
    lifecycle code relies on: suffix tests, suffix removal and file extensions. */
module Strings {

  predicate HasSuffix(s: string, suffix: string)
  {
    |suffix| <= |s| && s[|s| - |suffix|..] == suffix
  }

  /** `strings.TrimSuffix`: drops `suffix` once if present, otherwise returns `s`. */
  function TrimSuffix(s: string, suffix: string): (r: string)
    ensures HasSuffix(s, suffix) ==> r + suffix == s
    ensures !HasSuffix(s, suffix) ==> r == s
  {
    if HasSuffix(s, suffix) then s[..|s| - |suffix|] else s
  }

  /** `filepath.Ext`: the suffix starting at the final dot of the last path
      element, or "" when that element has no dot. */
  function Ext(path: string): (e: string)
    ensures e != "" ==> HasSuffix(path, e) && e[0] == '.' && '.' !in e[1..] && '/' !in e
    ensures e == "" ==> forall k :: 0 <= k < |path| && path[k] == '.' ==>
      exists m :: k < m < |path| && path[m] == '/'
  {
    ExtBefore(path, |path|)
  }

  /** The scan of `Ext`, from position `i` back towards the start of the
      last path element. */
  function ExtBefore(path: string, i: nat): (e: string)
    requires i <= |path|
    requires forall k :: i <= k < |path| ==> path[k] != '.' && path[k] != '/'
    ensures e != "" ==>
      |e| <= |path| && e == path[|path| - |e|..] && e[0] == '.' && '.' !in e[1..] && '/' !in e
    ensures e == "" ==> forall k :: 0 <= k < i && path[k] == '.' ==>
      exists m :: k < m < i && path[m] == '/'
  {
    if i == 0 || path[i - 1] == '/' then ""
    else if path[i - 1] == '.' then path[i - 1..]
    else ExtBefore(path, i - 1)
  }

  /** Appending the suffix and trimming it again gives back the stem. */
  lemma TrimAppended(stem: string, suffix: string)
    ensures HasSuffix(stem + suffix, suffix)
    ensures TrimSuffix(stem + suffix, suffix) == stem
  {
    assert (stem + suffix)[|stem|..] == suffix;
    assert (stem + suffix)[..|stem|] == stem;
  }

  /** Two names that get the same suffix appended were equal. */
  lemma AppendCancel(a: string, b: string, suffix: string)
    requires a + suffix == b + suffix
    ensures a == b
  {
    assert |a| == |b|;
    assert a == (a + suffix)[..|a|];
    assert b == (b + suffix)[..|b|];
  }

  /** `filepath.Ext(f) == ".json"` holds exactly when `f` ends in ".json":
      the scan passes over "json" and stops at the dot before it. */
  lemma ExtJsonIffSuffix(f: string)
    ensures Ext(f) == ".json" <==> HasSuffix(f, ".json")
  {
    if HasSuffix(f, ".json") {
      var n := |f|;
      assert f[n - 5..] == ".json";
      assert f[n - 1] == 'n' && f[n - 2] == 'o' && f[n - 3] == 's' && f[n - 4] == 'j' && f[n - 5] == '.';
      assert ExtBefore(f, n - 4) == f[n - 5..];
      assert ExtBefore(f, n - 3) == ExtBefore(f, n - 4);
      assert ExtBefore(f, n - 2) == ExtBefore(f, n - 3);
      assert ExtBefore(f, n - 1) == ExtBefore(f, n - 2);
      assert ExtBefore(f, n) == ExtBefore(f, n - 1);
    }
  }
}

=== FILE: uninstall.dfy ===
/** `smp uninstall <name>`: removes an MCP's image, its entries in the hosts
    it was configured in, and finally its state file. Every step stops the
    command on failure, so the state file survives any failed step and the
    uninstall can be retried. */
module UninstallCommand {
  import opened Errors
  import opened State
  import opened HostConnectors
  import opened HostManager
  import opened Docker
  import opened Collections

  /** Among the hosts' config files `files`, host `h`'s file is known,
      readable and holds no entry for `server`. */
  predicate Disconnected(files: map<string, ConfigFile>, h: string, server: string)
  {
    h in files && LoadConfig(files[h]).Ok? && server !in LoadConfig(files[h]).value
  }

  /** One pass of the disconnect loop as a value, on the outcome `acc` of the
      earlier passes (files, hosts attempted, status): after a failure nothing
      more happens; otherwise host `h` is attempted, disconnected through its
      connector, and its status becomes the loop's. An unknown host fails as
      such and changes no file. */
  function DisconnectStep(acc: (map<string, ConfigFile>, seq<string>, Status), hosts: map<string, HostConnector>,
                          server: string, h: string): (r: (map<string, ConfigFile>, seq<string>, Status))
    ensures r.0.Keys == acc.0.Keys
    ensures acc.2.Failure? ==> r == acc
  {
    var (files, attempted, st) := acc;
    if st.Failure? then acc
    else if h in hosts && h in files then
      var (after, _, result) := DisconnectFile(files[h], hosts[h].writable, server);
      (files[h := after], attempted + [h], result)
    else (files, attempted + [h], Failure(HostNotFound(h)))
  }

  /** The disconnect loop of `uninstall` as a value: the hosts of `hs` in
      order, stopping at the first failure. The final files, the hosts
      attempted (the failing one last) and the status. */
  function DisconnectEach(files: map<string, ConfigFile>, hosts: map<string, HostConnector>, server: string,
                          hs: seq<string>): (r: (map<string, ConfigFile>, seq<string>, Status))
    ensures r.0.Keys == files.Keys
  {
    if hs == [] then (files, [], Success)
    else DisconnectStep(DisconnectEach(files, hosts, server, hs[..|hs| - 1]), hosts, server, hs[|hs| - 1])
  }

  /** One more host is one more `DisconnectStep`. */
  lemma DisconnectEachSnoc(files: map<string, ConfigFile>, hosts: map<string, HostConnector>, server: string,
                           hs: seq<string>, n: nat)
    requires n < |hs|
    ensures DisconnectEach(files, hosts, server, hs[..n + 1])
      == DisconnectStep(DisconnectEach(files, hosts, server, hs[..n]), hosts, server, hs[n])
  {
    assert hs[..n + 1][..n] == hs[..n];
  }

  /** Once the loop has failed on a prefix, the whole loop ends as it did. */
  lemma {:induction false} DisconnectEachStaysFailed(files: map<string, ConfigFile>, hosts: map<string, HostConnector>,
                                                     server: string, hs: seq<string>, k: nat)
    requires k <= |hs| && DisconnectEach(files, hosts, server, hs[..k]).2.Failure?
    ensures DisconnectEach(files, hosts, server, hs) == DisconnectEach(files, hosts, server, hs[..k])
    decreases |hs| - k
  {
    if k < |hs| {
      var prefix := hs[..|hs| - 1];
      assert prefix[..k] == hs[..k];
      DisconnectEachStaysFailed(files, hosts, server, prefix, k);
    } else {
      assert hs[..k] == hs;
    }
  }

  /** The outcome `r` of the disconnect loop over `hs`, started on `files`:
      a prefix of the hosts was attempted and no other host's file changed;
      every host attempted before the last no longer holds the server;
      success means every host was attempted and holds it no more, and a
      failure leaves the failing host still holding it (or unreadable). */
  ghost predicate DisconnectOutcome(files: map<string, ConfigFile>, server: string, hs: seq<string>,
                                    r: (map<string, ConfigFile>, seq<string>, Status))
  {
    var (after, attempted, st) := r;
    && attempted <= hs
    && after.Keys == files.Keys
    && (forall k :: k in files && k !in attempted ==> after[k] == files[k])
    && (forall j :: 0 <= j < |attempted| - 1 ==> Disconnected(after, attempted[j], server))
    && (st.Success? ==> attempted == hs && forall h :: h in hs ==> Disconnected(after, h, server))
    && (st.Failure? ==> |attempted| > 0 && !Disconnected(after, attempted[|attempted| - 1], server))
  }

  /** One more pass keeps `DisconnectOutcome`. */
  lemma DisconnectOutcomeStep(files: map<string, ConfigFile>, hosts: map<string, HostConnector>, server: string,
                              hs: seq<string>, r0: (map<string, ConfigFile>, seq<string>, Status), h: string)
    requires files.Keys == hosts.Keys && DisconnectOutcome(files, server, hs, r0)
    ensures DisconnectOutcome(files, server, hs + [h], DisconnectStep(r0, hosts, server, h))
  {
    var (before, tried, st0) := r0;
    if st0.Failure? {
      assert tried <= hs + [h];
    } else if h in hosts {
      DisconnectSucceedsIffGone(before[h], hosts[h].writable, server);
      var (f, _, st) := DisconnectFile(before[h], hosts[h].writable, server);
      var after := before[h := f];
      assert DisconnectStep(r0, hosts, server, h) == (after, hs + [h], st);
      forall j | 0 <= j < |hs|
        ensures Disconnected(after, hs[j], server)
      {
        assert Disconnected(before, hs[j], server);
      }
    }
  }

  /** Over config files for exactly the known hosts, the disconnect loop
      ends in a `DisconnectOutcome`. */
  lemma {:induction false} DisconnectEachOutcome(files: map<string, ConfigFile>, hosts: map<string, HostConnector>,
                                                 server: string, hs: seq<string>)
    requires files.Keys == hosts.Keys
    ensures DisconnectOutcome(files, server, hs, DisconnectEach(files, hosts, server, hs))
    decreases |hs|
  {
    if hs != [] {
      var n := |hs| - 1;
      DisconnectEachOutcome(files, hosts, server, hs[..n]);
      DisconnectOutcomeStep(files, hosts, server, hs[..n], DisconnectEach(files, hosts, server, hs[..n]), hs[n]);
      assert hs[..n] + [hs[n]] == hs;
    }
  }

  /** The disconnect loop: each listed host in order, stopping at the first
      failure, as `DisconnectEach` states. `attempted` is the hosts tried, the
      failing one last; every host before it no longer holds the server, and
      a host not attempted keeps its file. */
  method DisconnectAll(manager: Manager, hosts: seq<string>, name: string)
    returns (attempted: seq<string>, st: Status)
    requires manager.Valid()
    modifies manager
    ensures manager.Valid()
    ensures (manager.files, attempted, st) == DisconnectEach(old(manager.files), manager.hosts, name, hosts)
    ensures attempted <= hosts
    ensures forall k :: k in old(manager.files) && k !in attempted ==> manager.files[k] == old(manager.files[k])
    ensures forall j :: 0 <= j < |attempted| - 1 ==> Disconnected(manager.files, attempted[j], name)
    ensures st.Success? ==> attempted == hosts && forall h :: h in hosts ==> Disconnected(manager.files, h, name)
    ensures st.Failure? ==> |attempted| > 0 && !Disconnected(manager.files, attempted[|attempted| - 1], name)
  {
    DisconnectEachOutcome(manager.files, manager.hosts, name, hosts);
    attempted := [];
    for i := 0 to |hosts|
      invariant manager.Valid()
      invariant (manager.files, attempted, Success) == DisconnectEach(old(manager.files), manager.hosts, name, hosts[..i])
    {
      DisconnectEachSnoc(old(manager.files), manager.hosts, name, hosts, i);
      var h := hosts[i];
      attempted := attempted + [h];
      var wasConfigured;
      wasConfigured, st := manager.Disconnect(h, name);
      if st.Failure? {
        DisconnectEachStaysFailed(old(manager.files), manager.hosts, name, hosts, i + 1);
        return;
      }
    }
    assert hosts[..|hosts|] == hosts;
    st := Success;
  }

  /** The `uninstall` action. `storeOk` is whether the home state store can
      be opened and `dockerOk` whether `docker rmi` succeeds. `rmiArgs` is the
      docker command run ([] when none was) and `attempted` the hosts a
      disconnect was tried in, in order. */
  method Uninstall(args: seq<string>, storeOk: bool, store: Store, dockerOk: bool, manager: Manager)
    returns (rmiArgs: seq<string>, attempted: seq<string>, st: Status)
    requires store.Valid() && manager.Valid()
    modifies store, manager
    ensures store.Valid() && manager.Valid()
    ensures (|args| == 0 || !storeOk || LoadRecord(old(store.files), args[0]).Err?) ==>
      rmiArgs == [] && attempted == [] && store.files == old(store.files)
      && manager.files == old(manager.files)
    ensures |args| == 0 ==> st == Failure(MissingArgument)
    ensures |args| > 0 && !storeOk ==> st == Failure(StoreUnavailable)
    ensures |args| > 0 && storeOk ==> store.dirExists
    ensures |args| > 0 && storeOk && LoadRecord(old(store.files), args[0]).Err? ==>
      st == Failure(LoadRecord(old(store.files), args[0]).error)
    ensures |args| > 0 && storeOk && LoadRecord(old(store.files), args[0]).Ok? ==>
      var name := args[0];
      var rec := LoadRecord(old(store.files), name).value;
      rmiArgs == (if rec.localImageTag != "" then DeleteImageArgs(rec.localImageTag) else [])
      && (rec.localImageTag != "" && !dockerOk ==>
            st == Failure(ImageDeleteFailed(rec.localImageTag)) && attempted == []
            && store.files == old(store.files) && manager.files == old(manager.files))
      && (rec.localImageTag == "" || dockerOk ==>
            var (files', attempted', disconnected) := DisconnectEach(old(manager.files), manager.hosts, name,
                                                                     rec.configuredHosts);
            manager.files == files' && attempted == attempted'
            && (disconnected.Failure? ==> st == disconnected && store.files == old(store.files))
            && (disconnected.Success? <==> forall h :: h in rec.configuredHosts ==> Disconnected(manager.files, h, name))
            && attempted <= rec.configuredHosts
            && (forall k :: k in old(manager.files) && k !in attempted ==> manager.files[k] == old(manager.files[k]))
            && (forall j :: 0 <= j < |attempted| - 1 ==> Disconnected(manager.files, attempted[j], name))
            && (!(forall h :: h in rec.configuredHosts ==> Disconnected(manager.files, h, name)) ==>
                  st.Failure? && |attempted| > 0 && store.files == old(store.files)
                  && !Disconnected(manager.files, attempted[|attempted| - 1], name))
            && ((forall h :: h in rec.configuredHosts ==> Disconnected(manager.files, h, name)) ==>
                  attempted == rec.configuredHosts
                  && (FileName(name) !in old(store.files) || store.removable ==>
                        st == Success && store.files == old(store.files) - {FileName(name)})
                  && (FileName(name) in old(store.files) && !store.removable ==>
                        st == Failure(StateDeleteFailed(name)) && store.files == old(store.files))))
  {
    rmiArgs, attempted := [], [];
    if |args| < 1 {
      return rmiArgs, attempted, Failure(MissingArgument);
    }
    var name := args[0];
    var openSt := store.Open(storeOk);
    if openSt.Failure? {
      return rmiArgs, attempted, openSt;
    }
    var loaded := store.Load(name);
    if loaded.Err? {
      return rmiArgs, attempted, Failure(loaded.error);
    }
    var s := loaded.value;
    if s.localImageTag != "" {
      var deleted;
      rmiArgs, deleted := DeleteImage(s.localImageTag, dockerOk);
      if deleted.Failure? {
        return rmiArgs, attempted, deleted;
      }
    }
    var disconnected;
    attempted, disconnected := DisconnectAll(manager, s.configuredHosts, name);
    if disconnected.Failure? {
      return rmiArgs, attempted, disconnected;
    }
    st := store.Delete(name);
  }
}
